=== FILE: README.md ===
# IMU clock-drift correction and driving-state validation, in Dafny

This project models the core of IMU_validation, a set of Python scripts that
check whether an IMU's own motion labels agree with the vehicle's CAN-bus
speed. The pipeline has four stages:

1. **Drift correction** (`shift_time`).
   - The time-sync trace pairs the system clock with the IMU clock and their
     difference, the drift.
   - The trace is cut into segments at every row where the drift jumps by
     more than 2 s.
   - A straight line is fitted to drift against system clock over the rows
     of each segment.
   - Every IMU sample whose IMU timestamp lies in a segment's half-open
     window `[start, end)` is given the corrected timestamp
     `x - (x - start) * slope - offset`.
   - Samples outside every window, or with a missing field, are dropped.
2. **Ground truth** (`get_can_driving_data`).
   - Rows with a speed whose magnitude exceeds 0.5 are driving.
   - The k-th off-to-on edge of that flag is paired with the k-th on-to-off
     edge.
   - Intervals not longer than 0.5 s are discarded as noise.
   - The corrected samples inside each remaining interval are concatenated.
3. **Proxy** (`get_imu_driving_data`).
   - The same edge pairing is applied to the IMU's motion labels, where
     anything but `"stationary"` counts as moving.
   - A sample is selected when it lies in an interval extended 30 s
     backwards.
4. **Scores** (`TPR`, `FPR`). Both are ratios of set sizes of distinct
   corrected timestamps, measured against reference driving and parked
   events.

## Modules

- `common.dfy` (module `Common`): options, results carrying the pipeline's
  five error kinds, and order-preserving selection. A boolean mask applied to
  a table is modelled by `Filter`, and the index of a masked table by
  `IndicesWhere`.
- `least_squares.dfy` (module `LeastSquares`): the degree-1 least-squares
  fit in closed form. It proves that the result solves the normal equations,
  and that on points lying on a line it returns exactly that line.
- `drift_correction.dfy` (module `DriftCorrection`): `shift_time`. The same
  function appears, character for character, in `monitor_motion_state.py`
  and `correct_drift.py`, and the citations below alternate between the two
  copies.
- `driving_intervals.dfy` (module `DrivingIntervals`): edge detection,
  positional pairing, and both driving filters.
- `scoring.dfy` (module `Scoring`): the true and false positive rates.

## Quirks reproduced as written

These behaviours of the code are modelled as they are, and each has a lemma
that states it:

- **The jump row is not fitted.** A segment ending at a jump row fits the
  rows before it. The jump row opens the next segment.
- **A jump at the last row fails the whole build.** The last row is listed
  twice, which makes a segment with no rows.
- **A sample at exactly the final end timestamp is dropped** on a trace
  whose IMU clock never decreases. Every window is half-open. When the IMU
  clock steps back at a jump, an earlier window can reach past the last
  row's clock, and such a sample is kept.
- **Overlapping windows: the last segment wins.** The correction loop
  overwrites earlier assignments.
- **Edges are paired by position.** A speed trace that is already driving
  at its first row pairs its first start with the stop before it. That
  first pair is inverted and dropped by the noise filter; on a four-row trace that
  drives, stops and drives again, the second burst is lost too, however long
  it lasts.
- **A missing motion label counts as moving.** The inequality test with
  `"stationary"` is true for it.
- **The jump row is the later row of the jump.** The drift difference is
  reported at the second of the two rows, so for drifts 0.1, 0.1, 0.1, 0.1,
  5.2, ... the segment boundary is row 4.
- **An empty driving proxy cannot be scored.** Selecting rows of a table
  without rows by a row-wise test leaves a table without columns, and the
  timestamp lookup that follows fails. Both rates fail on an empty proxy.

## Model

| member | source | states |
|---|---|---|
| `DriftCorrection.Jumps` | monitor_motion_state.py:126-127 | exactly the rows whose drift differs from the previous row's by more than 2 s, in increasing order; row 0 is never one |
| `DriftCorrection.JumpIndexes` | correct_drift.py:62-63 | the segment end rows are exactly the jump rows followed by the last row of the trace |
| `DriftCorrection.Bounds` | monitor_motion_state.py:127-131 | the segment boundary rows are row 0 followed by the segment end rows, non-decreasing, within the trace |
| `DriftCorrection.JumpRowsAreBoundaries` | monitor_motion_state.py:127-141 | the k-th jump row's IMU clock is where segment k ends and segment k + 1 starts |
| `DriftCorrection.FitSegment` | monitor_motion_state.py:137-139 | a segment's line exists exactly when its rows determine one; it then solves the normal equations of those rows, with offset = slope * start + intercept |
| `DriftCorrection.SegmentBetween` | correct_drift.py:69-74 | the segment between two boundary rows runs from the IMU clock of the first to that of the second; it fails exactly when the rows from the first up to but excluding the second do not determine a line, and otherwise its line solves the normal equations of those rows |
| `DriftCorrection.BuildSegments` | monitor_motion_state.py:126-141 | one segment per jump index, segment k spanning boundary rows k and k + 1; fails with MissingData exactly on an empty trace and with DegenerateSegment exactly when some segment's rows do not determine a line |
| `DriftCorrection.SegmentsChain` | correct_drift.py:66-76 | the first segment starts at the first row, each next one starts where the previous ends, and the last ends at the last row |
| `DriftCorrection.NoJumpSingleSegment` | monitor_motion_state.py:127-141 | without a jump there is one segment over the whole trace, fitted to every row but the last |
| `DriftCorrection.LastRowJumpDegenerate` | correct_drift.py:62-76 | a jump at the last row makes an empty final segment, so the build fails |
| `DriftCorrection.SegmentFitsLine` | monitor_motion_state.py:137-139 | when a segment's drift is exactly linear in the system clock, the fitted slope and intercept are that line's |
| `DriftCorrection.SegmentIgnoresOtherRows` | correct_drift.py:70-73 | a segment depends only on its own rows and on the IMU clock of its closing row |
| `DriftCorrection.Correct` | monitor_motion_state.py:147 | the corrected reading is the window start less the offset, advanced by the reading's distance from the window start at rate 1 - slope |
| `DriftCorrection.CorrectAtStart` | correct_drift.py:82 | a reading at the window start is corrected to start - offset |
| `DriftCorrection.CorrectRemovesFittedDrift` | monitor_motion_state.py:137-147 | with offset = slope * start + intercept, as every fitted segment has it, the correction subtracts from a reading the drift the fitted line gives at that reading |
| `DriftCorrection.CorrectAffine` | monitor_motion_state.py:146-147 | within one segment the correction scales differences of timestamps by 1 - slope |
| `DriftCorrection.CorrectPreservesOrder` | correct_drift.py:81-82 | with slope below 1 the correction keeps samples in order |
| `DriftCorrection.LastCovering` | monitor_motion_state.py:143-147 | the segment that corrects a timestamp is the last one whose window contains it; none when no window does |
| `DriftCorrection.CorrectionFor` | correct_drift.py:78-82 | a timestamp is corrected exactly when some window contains it, and then by the formula of the last such segment |
| `DriftCorrection.WindowsOrdered` | monitor_motion_state.py:131-141 | on a trace with non-decreasing IMU clock, earlier segment windows end before later ones start |
| `DriftCorrection.CorrectedByOwnSegment` | correct_drift.py:78-82 | on such a trace a timestamp in segment k's window is corrected by segment k |
| `DriftCorrection.WindowsCoverTrace` | monitor_motion_state.py:143-145 | on any trace, every timestamp from the first row's IMU clock up to, but not including, the last row's is corrected |
| `DriftCorrection.CorrectedWithinTrace` | correct_drift.py:78-82 | on a trace whose IMU clock never decreases, only those timestamps are corrected: one before the first row's IMU clock, or at or after the last row's, lies in no window |
| `DriftCorrection.FinalEndUncovered` | correct_drift.py:79-80 | on a trace whose IMU clock never decreases, the last row's IMU clock lies in no window |
| `DriftCorrection.CorrectSample` | monitor_motion_state.py:143-151 | a sample survives exactly when all its fields are present and its timestamp is corrected, and keeps its fields |
| `DriftCorrection.ShiftRows` | correct_drift.py:78-86 | the surviving samples in their original order, each carrying its corrected timestamp |
| `DriftCorrection.ShiftTime` | monitor_motion_state.py:124-153 | fails exactly when the segment build fails; otherwise an order-preserving selection of the samples, keeping each surviving one with its multiplicity |
| `DriftCorrection.ShiftTimeUsesOwnSegment` | correct_drift.py:59-88 | on a trace whose IMU clock never decreases, a complete sample inside segment k's window appears in the output with segment k's correction |
| `DriftCorrection.ShiftTimeDropsFinalEnd` | monitor_motion_state.py:144-151 | on a trace whose IMU clock never decreases, no output sample has the last row's IMU timestamp |
| `DriftCorrection.ShiftTimeCoversTrace` | correct_drift.py:78-86 | on any trace, every complete sample from the first row's IMU clock up to, but not including, the last row's survives |
| `DriftCorrection.ShiftTimeWithinTrace` | monitor_motion_state.py:143-151 | on a trace whose IMU clock never decreases, every surviving sample is stamped from the first row's IMU clock up to, but not including, the last row's |
| `DriftCorrection.JumpTraceJumpRows` | monitor_motion_state.py:127 | in a ten-row trace whose drift steps by 5.1 s (0.1 to 5.2) at row 4, row 4 is the only jump row |
| `DriftCorrection.JumpTraceSegments` | correct_drift.py:61-76 | that trace gives two segments, 1000-1004 and 1004-1009, the first with slope 0 and intercept 0.1 |
| `LeastSquares.Fit` | monitor_motion_state.py:137-138 | the fitted line satisfies both normal equations of the least-squares problem |
| `LeastSquares.UniqueSolution` | correct_drift.py:72-73 | with a non-zero determinant the normal equations have only one solution |
| `LeastSquares.FitRecoversLine` | monitor_motion_state.py:137-138 | on points lying on a line the fit returns that line |
| `DrivingIntervals.Rises` | monitor_motion_state.py:160 | exactly the rows at which the flag turns on, in increasing order; row 0 never |
| `DrivingIntervals.Falls` | monitor_motion_state.py:161 | exactly the rows at which the flag turns off, in increasing order |
| `DrivingIntervals.Pair` | monitor_motion_state.py:164 | the k-th start is paired with the k-th end, and the surplus of the longer list is dropped |
| `DrivingIntervals.Intervals` | monitor_motion_state.py:174-175 | interval k runs from the time of the k-th rise to the time of the k-th fall |
| `DrivingIntervals.FirstIntervalInverted` | monitor_motion_state.py:160-164 | on a time-ordered trace that is on at its first row, the first interval ends before it starts |
| `DrivingIntervals.DrivingAtStartDropsFirstInterval` | monitor_motion_state.py:157-166 | a CAN trace already driving at its first speed row has an inverted first interval, which the noise filter drops |
| `DrivingIntervals.CanIntervals` | monitor_motion_state.py:157-164 | over the rows carrying a speed, interval k runs from the timestamp of the k-th row where the speed magnitude starts to exceed 0.5 to that of the k-th row where it stops, as many intervals as the shorter edge list |
| `DrivingIntervals.KeptIntervals` | monitor_motion_state.py:164-166 | the kept intervals are exactly those lasting strictly longer than 0.5 s, in their original order and with their multiplicity |
| `DrivingIntervals.Covering` | monitor_motion_state.py:167-168 | counts the intervals containing a time; positive exactly when some interval contains it |
| `DrivingIntervals.Gather` | monitor_motion_state.py:163-169 | each sample appears once per interval containing its corrected timestamp, times its multiplicity in the input |
| `DrivingIntervals.CanDrivingData` | monitor_motion_state.py:156-169 | fails with NothingToConcatenate exactly when no interval is kept; otherwise selects exactly the samples inside some kept interval, with multiplicity |
| `DrivingIntervals.StandingCanFails` | monitor_motion_state.py:159-169 | a CAN trace that never exceeds 0.5 in speed yields no driving data |
| `DrivingIntervals.SingleBurst` | monitor_motion_state.py:166 | a single burst is kept exactly when it lasts longer than 0.5 s |
| `DrivingIntervals.StartInMotionLosesBurst` | monitor_motion_state.py:160-169 | driving, stopping and driving again loses the second burst, however long it lasts |
| `DrivingIntervals.MotionIntervals` | monitor_motion_state.py:173-175 | interval k runs from the system clock of the k-th row where the label turns to moving to that of the k-th row where it turns back to stationary, as many intervals as the shorter edge list |
| `DrivingIntervals.ImuDrivingData` | monitor_motion_state.py:172-182 | an order-preserving selection of exactly the samples within 30 s before, or inside, some motion interval |
| `DrivingIntervals.StationaryTraceSelectsNothing` | monitor_motion_state.py:173-181 | a trace labelled stationary throughout has no motion interval and selects nothing |
| `DrivingIntervals.LeadInIsDriving` | monitor_motion_state.py:177-178 | a sample up to 30 s before a motion interval starts is selected, provided the interval does not end before it starts (the selection test also bounds the sample by the interval's end) |
| `DrivingIntervals.AfterEveryIntervalNotDriving` | monitor_motion_state.py:177-181 | a sample later than every motion interval's end is not selected |
| `DrivingIntervals.MissingStateIsMotion` | monitor_motion_state.py:173 | a missing label between two stationary ones opens a motion interval |
| `Scoring.Ratio` | monitor_motion_state.py:192 | the ratio of two counts is non-negative, at most 1 exactly when the numerator is at most the denominator, 1 exactly when they are equal, 0 exactly when the numerator is 0 |
| `Scoring.Tpr` | monitor_motion_state.py:185-192 | fails exactly when the proxy is empty (MissingColumn, at the proxy lookup) or there is no CAN driving data (EmptyDenominator); otherwise a rate in [0, 1], equal to 1 exactly when every truth timestamp is a proxy timestamp inside a driving event, and 0 exactly when none is |
| `Scoring.TprOfTruthAgainstItself` | monitor_motion_state.py:189-192 | scoring the truth against itself gives 1 exactly when the driving events cover all its timestamps |
| `Scoring.Fpr` | monitor_motion_state.py:195-202 | fails exactly when the proxy is empty or no IMU timestamp lies in a parked event, with MissingColumn exactly when the proxy or the IMU table is empty; otherwise non-negative, and 0 exactly when the proxy flags nothing parked |
| `Scoring.DrivingStampsAreImuStamps` | monitor_motion_state.py:199-200 | the proxy's parked timestamps are among the IMU's parked timestamps |
| `Scoring.FprAtMostOne` | monitor_motion_state.py:195-202 | with the IMU driving data as proxy, the rate is at most 1, and 1 exactly when every parked IMU timestamp is flagged |
| `Scoring.StationaryProxyCannotBeScored` | monitor_motion_state.py:173-200 | a proxy from a trace labelled stationary throughout is empty, so both rates fail with MissingColumn |
| `Scoring.NoParkedFlagsNoFalsePositives` | monitor_motion_state.py:195-202 | a non-empty proxy that flags nothing inside a parked event scores a false positive rate of 0 when IMU data lies in a parked event |

## Left out

- Fetching from S3 (`get_events`, `get_can_data`, `fetch_imu_data`, `fetch_time_data` and the two fetchers of `correct_drift.py`), `correct_clock`, the `__main__` blocks, `fetch_data.py` and `plot_data.py` are left out. They are I/O, and the modelled functions take their tables as parameters.
- The trace preparation in the fetcher (monitor_motion_state.py:118-119, correct_drift.py:54-55) is left out: it drops rows with a missing clock or drift and renumbers the rest. `TimeSync` holds only rows that passed that step, and the drift is read from the trace, not computed.
- The acceleration norm column (monitor_motion_state.py:231) is not part of this model. It is computed in the main block and read by nothing downstream.
- All arithmetic is over exact reals, with no floating-point rounding.
- An IMU timestamp that is NaN is modelled as a missing value. A missing motion label is `None`.
- CAN timestamps are taken as present: `CanRow.timestamp` is a plain real. A NaN CAN timestamp, which fails every comparison, is not modelled.
- Tables are immutable sequences. The in-place column additions (`correct_timestamp`, `motion_bin`, `driving_state`) become fields of the returned rows.
- A pandas table index is modelled as a row position. Both are the same after `reset_index`.
- `DriftCorrection.FitSegment`: numpy's `polyfit` on fewer than two rows, or on rows with a constant system clock, returns a rank-deficient least-squares answer or raises. The model returns `DegenerateSegment` there instead of choosing one of numpy's answers.
- `DriftCorrection.BuildSegments`: an empty trace fails with `MissingData`, where the source raises an index error on the missing last row.
- `DriftCorrection.ShiftTime`: NaN signal fields are modelled as `None`. Infinities and the other edge cases of floating point are not modelled.
- The reference events of `TPR` and `FPR` are taken as lists of intervals. Reading them from the event dictionary is left out.
- `Scoring.Tpr`: a division by zero in the source becomes `EmptyDenominator`. A "rate of 1 on identical inputs" holds only when the reference driving events cover every timestamp, as `Scoring.TprOfTruthAgainstItself` states.
- `DrivingIntervals.ImuDrivingData`: on an empty IMU table the source returns a table without columns; the model returns an empty sequence. Both make the rates fail with `MissingColumn`.
- An empty selection key is not boolean, so pandas reads it as a list of column labels; the model's `MissingColumn` stands for the resulting key error.

=== FILE: common.dfy ===
/** Shared vocabulary of the drift-correction and driving-state pipeline:
    optional values, results carrying the pipeline's error kinds, and
    order-preserving row selection over sequences (the model of a table
    filtered by a boolean mask). */
module Common {

  datatype Option<+T> = None | Some(value: T)

  /** The ways a stage of the pipeline can fail instead of producing a table
      or a number. */
  datatype Error =
    | MissingData           // the time-sync trace has no rows
    | DegenerateSegment     // the rows of a segment do not determine a line
    | NothingToConcatenate  // no driving interval survived the noise filter
    | EmptyDenominator      // the denominator set of a rate is empty
    | MissingColumn         // a column was looked up in a table that a row
                            // selection on an empty table left without columns

  datatype Result<+T> = Ok(value: T) | Err(error: Error)

  function Abs(x: real): real {
    if x < 0.0 then -x else x
  }

  function Min(a: int, b: int): int {
    if a <= b then a else b
  }

  /** `sub` is obtained from `s` by deleting zero or more elements, so its
      elements occur in `s` in the same relative order. */
  predicate IsSubsequence<T(==)>(sub: seq<T>, s: seq<T>)
    decreases |s|
  {
    if |sub| == 0 then true
    else if |s| == 0 then false
    else (sub[0] == s[0] && IsSubsequence(sub[1..], s[1..])) || IsSubsequence(sub, s[1..])
  }

  /** The elements of `s` that satisfy `keep`, in their original order and
      with their original multiplicity. */
  function Filter<T(==,!new)>(s: seq<T>, keep: T -> bool): (r: seq<T>)
    ensures |r| <= |s|
    ensures IsSubsequence(r, s)
    ensures forall x :: multiset(r)[x] == if keep(x) then multiset(s)[x] else 0
    ensures forall x :: x in r <==> x in s && keep(x)
  {
    if |s| == 0 then []
    else
      var rest := Filter(s[1..], keep);
      assert s == [s[0]] + s[1..];
      assert multiset(s) == multiset{s[0]} + multiset(s[1..]);
      if keep(s[0]) then
        assert multiset([s[0]] + rest) == multiset{s[0]} + multiset(rest);
        [s[0]] + rest
      else rest
  }

  /** The indices i with lo <= i < hi at which `p` holds, in increasing order:
      the index of a table filtered by a boolean mask. */
  function IndicesWhere(lo: nat, hi: nat, p: nat -> bool): (r: seq<nat>)
    requires lo <= hi
    ensures forall k :: 0 <= k < |r| ==> lo <= r[k] < hi && p(r[k])
    ensures forall i :: lo <= i < hi && p(i) ==> i in r
    ensures forall k, l :: 0 <= k < l < |r| ==> r[k] < r[l]
    decreases hi - lo
  {
    if lo == hi then []
    else if p(lo) then [lo] + IndicesWhere(lo + 1, hi, p)
    else IndicesWhere(lo + 1, hi, p)
  }

  /** A filter that keeps every element returns its input. */
  lemma {:induction false} FilterKeepsAll<T(!new)>(s: seq<T>, keep: T -> bool)
    requires forall i :: 0 <= i < |s| ==> keep(s[i])
    ensures Filter(s, keep) == s
  {
    if |s| > 0 {
      FilterKeepsAll(s[1..], keep);
      assert s == [s[0]] + s[1..];
    }
  }

  /** A filter that keeps no element returns the empty sequence. */
  lemma {:induction false} FilterDropsAll<T(!new)>(s: seq<T>, keep: T -> bool)
    requires forall i :: 0 <= i < |s| ==> !keep(s[i])
    ensures Filter(s, keep) == []
  {
    if |s| > 0 {
      FilterDropsAll(s[1..], keep);
    }
  }

  /** A strictly increasing sequence drawn from lo .. hi - 1 has at most
      hi - lo elements. */
  lemma {:induction false} IncreasingBounded(r: seq<nat>, lo: nat, hi: nat)
    requires lo <= hi
    requires forall k :: 0 <= k < |r| ==> lo <= r[k] < hi
    requires forall k, l :: 0 <= k < l < |r| ==> r[k] < r[l]
    ensures |r| <= hi - lo
  {
    if |r| > 0 {
      IncreasingBounded(r[1..], r[0] + 1, hi);
    }
  }

  /** A strictly increasing sequence that contains x and nothing else is [x]. */
  lemma OnlyElement(r: seq<nat>, x: nat)
    requires x in r && forall k :: 0 <= k < |r| ==> r[k] == x
    requires forall k, l :: 0 <= k < l < |r| ==> r[k] < r[l]
    ensures r == [x]
  {
    IncreasingBounded(r, x, x + 1);
  }
}

=== FILE: drift_correction.dfy ===
/** The clock-drift correction `shift_time`: the time-sync trace is cut into
    segments at drift jumps, one drift line is fitted per segment, and every
    IMU sample inside a segment's window gets a corrected timestamp; samples
    outside every window, or with a missing field, are dropped.

    The same function appears verbatim in monitor_motion_state.py and in
    correct_drift.py; this one module models both copies. */
module DriftCorrection {
  import opened Common
  import LeastSquares

  /** A drift change of more than this many seconds between consecutive rows
      of the trace is a clock jump. */
  const JumpLimit: real := 2.0

  /** One row of the time-sync trace. Rows with a missing clock or drift value
      have already been removed, so those three fields are always present;
      the motion label may be missing. */
  datatype TimeSync = TimeSync(systemClock: real, imuClock: real, drift: real, motionState: Option<string>)

  /** A linear drift model valid over the IMU-clock window [startTs, endTs). */
  datatype Segment = Segment(startTs: real, endTs: real, slope: real, intercept: real, offset: real)

  /** A raw IMU sample: its IMU-clock timestamp and its signal fields, any of
      which may be missing. */
  datatype ImuSample = ImuSample(timestamp: Option<real>, signals: seq<Option<real>>)

  /** A sample of the corrected table: the raw sample with its corrected
      timestamp added. */
  datatype Corrected = Corrected(sample: ImuSample, correctTs: real)

  // ---------------------------------------------------------------------
  // Segment builder
  // ---------------------------------------------------------------------

  /** Row i is a jump row: its drift differs from the previous row's by more
      than the limit. Row 0 has no previous row, so it is never a jump. */
  predicate IsJump(trace: seq<TimeSync>, i: nat) {
    1 <= i < |trace| && Abs(trace[i].drift - trace[i - 1].drift) > JumpLimit
  }

  /** The jump rows in increasing order. */
  function Jumps(trace: seq<TimeSync>): (r: seq<nat>)
    ensures forall k :: 0 <= k < |r| ==> IsJump(trace, r[k])
    ensures forall i :: IsJump(trace, i) ==> i in r
    ensures forall k, l :: 0 <= k < l < |r| ==> r[k] < r[l]
  {
    IndicesWhere(0, |trace|, (i: nat) => IsJump(trace, i))
  }

  /** The jump rows followed by the last row, the row indices at which
      segments end. The last row appears twice when it is itself a jump. */
  function JumpIndexes(trace: seq<TimeSync>): (r: seq<nat>)
    requires |trace| > 0
    ensures r == Jumps(trace) + [|trace| - 1]
    ensures |r| == |Jumps(trace)| + 1 && r[|r| - 1] == |trace| - 1
    ensures forall k :: 0 <= k < |r| ==> r[k] < |trace|
  {
    Jumps(trace) + [|trace| - 1]
  }

  /** The row indices at which segments begin and end: row 0, then each
      entry of JumpIndexes. Segment k spans rows Bounds[k] .. Bounds[k + 1]. */
  function Bounds(trace: seq<TimeSync>): (r: seq<nat>)
    requires |trace| > 0
    ensures r == [0] + JumpIndexes(trace)
    ensures |r| == |JumpIndexes(trace)| + 1
    ensures r[0] == 0 && r[|r| - 1] == |trace| - 1
    ensures forall k :: 0 <= k < |r| ==> r[k] < |trace|
    ensures forall k, l :: 0 <= k <= l < |r| ==> r[k] <= r[l]
  {
    var jumps := Jumps(trace);
    Framed(jumps, |trace|);
    [0] + jumps + [|trace| - 1]
  }

  /** An increasing sequence of indices inside [0, n) stays ascending when
      framed by 0 and n - 1. */
  lemma Framed(s: seq<nat>, n: nat)
    requires n > 0 && forall k :: 0 <= k < |s| ==> s[k] < n
    requires forall k, l :: 0 <= k < l < |s| ==> s[k] < s[l]
    ensures var r := [0] + s + [n - 1];
      forall k, l :: 0 <= k <= l < |r| ==> r[k] <= r[l]
  {
    var r := [0] + s + [n - 1];
    forall k, l | 0 <= k <= l < |r|
      ensures r[k] <= r[l]
    {
      if 0 < k < l < |r| - 1 {
        assert r[k] == s[k - 1] && r[l] == s[l - 1];
      } else if 0 < k < |r| - 1 {
        assert r[k] == s[k - 1];
      }
    }
  }

  function SystemClocks(rows: seq<TimeSync>): (r: seq<real>)
    ensures |r| == |rows|
    ensures forall i :: 0 <= i < |rows| ==> r[i] == rows[i].systemClock
  {
    seq(|rows|, i requires 0 <= i < |rows| => rows[i].systemClock)
  }

  function Drifts(rows: seq<TimeSync>): (r: seq<real>)
    ensures |r| == |rows|
    ensures forall i :: 0 <= i < |rows| ==> r[i] == rows[i].drift
  {
    seq(|rows|, i requires 0 <= i < |rows| => rows[i].drift)
  }

  /** The offset of the segment is its drift line evaluated at the window
      start. */
  predicate OffsetAtStart(seg: Segment) {
    seg.offset == seg.slope * seg.startTs + seg.intercept
  }

  /** The segment over the IMU-clock window [start, end) whose drift line is
      fitted to the points (xs[i], ys[i]), with its offset being that line
      evaluated at the window start. Fails when the points do not determine a
      line. */
  function FitSegment(xs: seq<real>, ys: seq<real>, start: real, end: real): (r: Result<Segment>)
    ensures r.Err? <==> !LeastSquares.Determined(xs, ys)
    ensures r.Err? ==> r.error == DegenerateSegment
    ensures r.Ok? ==> |xs| >= 2
    ensures r.Ok? ==> r.value.startTs == start && r.value.endTs == end
    ensures r.Ok? ==> OffsetAtStart(r.value)
    ensures r.Ok? ==> (|xs| == |ys| &&
      LeastSquares.SolvesNormalEquations(xs, ys, LeastSquares.Line(r.value.slope, r.value.intercept)))
  {
    if !LeastSquares.Determined(xs, ys) then Err(DegenerateSegment)
    else
      LeastSquares.DeterminedNeedsTwoPoints(xs, ys);
      var line := LeastSquares.Fit(xs, ys);
      Ok(Segment(start, end, line.slope, line.intercept, line.slope * start + line.intercept))
  }

  /** The segment from row lo to row hi: its window runs from the IMU clock of
      row lo to the IMU clock of row hi, and its drift line is fitted to rows
      lo .. hi - 1 only (row hi is not part of the fit). */
  function SegmentBetween(trace: seq<TimeSync>, lo: nat, hi: nat): (r: Result<Segment>)
    requires lo <= hi < |trace|
    ensures r.Err? <==> !LeastSquares.Determined(SystemClocks(trace[lo..hi]), Drifts(trace[lo..hi]))
    ensures r.Err? ==> r.error == DegenerateSegment
    ensures r.Ok? ==> hi - lo >= 2
    ensures r.Ok? ==> r.value.startTs == trace[lo].imuClock && r.value.endTs == trace[hi].imuClock
    ensures r.Ok? ==> OffsetAtStart(r.value)
    ensures r.Ok? ==> LeastSquares.SolvesNormalEquations(SystemClocks(trace[lo..hi]), Drifts(trace[lo..hi]),
                                                         LeastSquares.Line(r.value.slope, r.value.intercept))
  {
    FitSegment(SystemClocks(trace[lo..hi]), Drifts(trace[lo..hi]), trace[lo].imuClock, trace[hi].imuClock)
  }

  /** The rows between some pair of consecutive bounds do not determine a
      line. */
  predicate SomeSegmentDegenerate(trace: seq<TimeSync>)
    requires |trace| > 0
  {
    exists k :: 0 <= k < |JumpIndexes(trace)| && SegmentBetween(trace, Bounds(trace)[k], Bounds(trace)[k + 1]).Err?
  }

  /** The segment list of a trace: one segment per entry of JumpIndexes,
      segment k spanning rows Bounds[k] .. Bounds[k + 1]. An empty trace has
      no last row and fails with MissingData; a segment whose rows do not
      determine a line makes the whole list fail. */
  function BuildSegments(trace: seq<TimeSync>): (r: Result<seq<Segment>>)
    ensures |trace| == 0 <==> r == Err(MissingData)
    ensures r.Err? && |trace| > 0 ==> r.error == DegenerateSegment
    ensures r.Err? && |trace| > 0 <==> |trace| > 0 && SomeSegmentDegenerate(trace)
    ensures r.Ok? ==> |r.value| == |JumpIndexes(trace)|
    ensures r.Ok? ==> forall k :: 0 <= k < |r.value| ==>
      SegmentBetween(trace, Bounds(trace)[k], Bounds(trace)[k + 1]) == Ok(r.value[k])
  {
    if |trace| == 0 then Err(MissingData)
    else if SomeSegmentDegenerate(trace) then Err(DegenerateSegment)
    else
      var b := Bounds(trace);
      Ok(seq(|b| - 1, k requires 0 <= k < |b| - 1 => SegmentBetween(trace, b[k], b[k + 1]).value))
  }

  /** Consecutive segments share a boundary: the first starts at the first
      row's IMU clock, each later one starts where the previous one ends, and
      the last ends at the last row's IMU clock. */
  lemma SegmentsChain(trace: seq<TimeSync>)
    requires BuildSegments(trace).Ok?
    ensures var segs := BuildSegments(trace).value;
      && |segs| >= 1
      && segs[0].startTs == trace[0].imuClock
      && (forall k :: 1 <= k < |segs| ==> segs[k].startTs == segs[k - 1].endTs)
      && segs[|segs| - 1].endTs == trace[|trace| - 1].imuClock
  {
    var segs, b := BuildSegments(trace).value, Bounds(trace);
    forall k | 1 <= k < |segs|
      ensures segs[k].startTs == segs[k - 1].endTs
    {
      assert SegmentBetween(trace, b[k], b[k + 1]) == Ok(segs[k]);
      assert SegmentBetween(trace, b[k - 1], b[k]) == Ok(segs[k - 1]);
    }
    assert SegmentBetween(trace, b[0], b[1]) == Ok(segs[0]);
    assert SegmentBetween(trace, b[|segs| - 1], b[|segs|]) == Ok(segs[|segs| - 1]);
  }

  /** A trace without jumps gives exactly one segment, spanning the whole
      trace and fitted to every row but the last. */
  lemma NoJumpSingleSegment(trace: seq<TimeSync>)
    requires |trace| > 0
    requires forall i :: !IsJump(trace, i)
    ensures JumpIndexes(trace) == [|trace| - 1]
    ensures match SegmentBetween(trace, 0, |trace| - 1)
      case Ok(seg) => BuildSegments(trace) == Ok([seg])
      case Err(e) => BuildSegments(trace) == Err(e)
  {
    IncreasingBounded(Jumps(trace), 0, 0);
    var b := Bounds(trace);
    assert b == [0, |trace| - 1];
    match SegmentBetween(trace, 0, |trace| - 1)
    case Ok(seg) =>
      assert !SomeSegmentDegenerate(trace);
      var segs := BuildSegments(trace).value;
      assert |segs| == 1 && SegmentBetween(trace, b[0], b[1]) == Ok(segs[0]);
      assert segs == [seg];
    case Err(e) =>
      assert SomeSegmentDegenerate(trace);
  }

  /** When the last row is itself a jump it closes one segment and opens
      another that ends where it starts and fits no rows, so segmenting fails. */
  lemma LastRowJumpDegenerate(trace: seq<TimeSync>)
    requires |trace| > 0 && IsJump(trace, |trace| - 1)
    ensures BuildSegments(trace) == Err(DegenerateSegment)
  {
    var n, b := |trace|, Bounds(trace);
    var m := |JumpIndexes(trace)|;
    LastJumpRepeatsLastRow(trace);
    EmptySegment(trace, n - 1);
    assert SegmentBetween(trace, b[m - 1], b[m]).Err?;
    assert SomeSegmentDegenerate(trace);
  }

  /** When the last row is a jump, the last two bounds are both the last
      row. */
  lemma LastJumpRepeatsLastRow(trace: seq<TimeSync>)
    requires |trace| > 0 && IsJump(trace, |trace| - 1)
    ensures |JumpIndexes(trace)| >= 2
    ensures Bounds(trace)[|JumpIndexes(trace)| - 1] == |trace| - 1
  {
    var n, jumps := |trace|, Jumps(trace);
    var k :| 0 <= k < |jumps| && jumps[k] == n - 1;
    assert jumps[k] <= jumps[|jumps| - 1] < n;
    assert Bounds(trace)[|jumps|] == jumps[|jumps| - 1];
  }

  /** A segment that closes at the row it opens at fits no rows. */
  lemma EmptySegment(trace: seq<TimeSync>, i: nat)
    requires i < |trace|
    ensures SegmentBetween(trace, i, i) == Err(DegenerateSegment)
  {
    assert trace[i..i] == [];
    assert LeastSquares.Spread(LeastSquares.SumsOf([], [])) == 0.0;
  }

  /** The jump row that closes a segment is not part of its fit: when rows
      lo .. hi - 1 lie on the line drift = a * systemClock + b, the segment's
      slope and intercept are a and b whatever row hi holds, and its offset is
      that line evaluated at the window start. */
  lemma SegmentFitsLine(trace: seq<TimeSync>, lo: nat, hi: nat, a: real, b: real)
    requires lo <= hi < |trace|
    requires SegmentBetween(trace, lo, hi).Ok?
    requires forall i :: lo <= i < hi ==> trace[i].drift == a * trace[i].systemClock + b
    ensures SegmentBetween(trace, lo, hi).value.slope == a
    ensures SegmentBetween(trace, lo, hi).value.intercept == b
    ensures SegmentBetween(trace, lo, hi).value.offset == a * trace[lo].imuClock + b
  {
    var xs, ys := SystemClocks(trace[lo..hi]), Drifts(trace[lo..hi]);
    RowsOnLine(trace, lo, hi, a, b);
    FitSegmentOnLine(xs, ys, trace[lo].imuClock, trace[hi].imuClock, a, b);
  }

  lemma RowsOnLine(trace: seq<TimeSync>, lo: nat, hi: nat, a: real, b: real)
    requires lo <= hi <= |trace|
    requires forall i :: lo <= i < hi ==> trace[i].drift == a * trace[i].systemClock + b
    ensures LeastSquares.OnLine(SystemClocks(trace[lo..hi]), Drifts(trace[lo..hi]), a, b)
  {
    var xs, ys := SystemClocks(trace[lo..hi]), Drifts(trace[lo..hi]);
    forall i | 0 <= i < |xs|
      ensures LeastSquares.Through(a, b, xs[i], ys[i])
    {
      assert trace[lo..hi][i] == trace[lo + i];
    }
    LeastSquares.PointwiseOnLine(xs, ys, a, b);
  }

  lemma FitSegmentOnLine(xs: seq<real>, ys: seq<real>, start: real, end: real, a: real, b: real)
    requires FitSegment(xs, ys, start, end).Ok? && |xs| == |ys|
    requires LeastSquares.OnLine(xs, ys, a, b)
    ensures FitSegment(xs, ys, start, end).value.slope == a
    ensures FitSegment(xs, ys, start, end).value.intercept == b
  {
    LeastSquares.FitRecoversLine(xs, ys, a, b);
  }

  /** A segment depends only on the rows it fits and on the IMU clock of the
      row that closes it. */
  lemma SegmentIgnoresOtherRows(t1: seq<TimeSync>, t2: seq<TimeSync>, lo: nat, hi: nat)
    requires lo <= hi < |t1| && hi < |t2|
    requires t1[lo..hi] == t2[lo..hi]
    requires t1[lo].imuClock == t2[lo].imuClock && t1[hi].imuClock == t2[hi].imuClock
    ensures SegmentBetween(t1, lo, hi) == SegmentBetween(t2, lo, hi)
  {
  }

  // ---------------------------------------------------------------------
  // Timestamp corrector
  // ---------------------------------------------------------------------

  /** The half-open window [startTs, endTs) of a segment. */
  predicate InWindow(seg: Segment, x: real) {
    seg.startTs <= x < seg.endTs
  }

  /** The corrected timestamp of IMU-clock reading x under segment seg: the
      drift at the window start (offset) and its growth since the window
      start are both removed. */
  function Correct(seg: Segment, x: real): (r: real)
    ensures r == seg.startTs - seg.offset + (x - seg.startTs) * (1.0 - seg.slope)
  {
    x - (x - seg.startTs) * seg.slope - seg.offset
  }

  /** When the offset is the fitted line's drift at the window start, the
      correction subtracts from a reading exactly the drift that the line
      predicts at that reading. */
  lemma CorrectRemovesFittedDrift(seg: Segment, x: real)
    requires seg.offset == seg.slope * seg.startTs + seg.intercept
    ensures Correct(seg, x) == x - (seg.slope * x + seg.intercept)
  {
  }

  /** At the window start only the offset is removed. */
  lemma CorrectAtStart(seg: Segment)
    ensures Correct(seg, seg.startTs) == seg.startTs - seg.offset
  {
  }

  /** The correction is affine with rate 1 - slope. */
  lemma CorrectAffine(seg: Segment, x1: real, x2: real)
    ensures Correct(seg, x2) - Correct(seg, x1) == (x2 - x1) * (1.0 - seg.slope)
  {
  }

  /** A segment whose slope is below 1 keeps readings in order. */
  lemma CorrectPreservesOrder(seg: Segment, x1: real, x2: real)
    requires seg.slope < 1.0 && x1 < x2
    ensures Correct(seg, x1) < Correct(seg, x2)
  {
    CorrectAffine(seg, x1, x2);
    var d, m := x2 - x1, 1.0 - seg.slope;
    assert d > 0.0 && m > 0.0;
    assert d * m > 0.0;
    assert Correct(seg, x2) - Correct(seg, x1) == d * m;
  }

  /** The index of the last segment whose window holds x, if any. */
  function LastCovering(segs: seq<Segment>, x: real): (r: Option<nat>)
    ensures r.None? <==> forall k :: 0 <= k < |segs| ==> !InWindow(segs[k], x)
    ensures r.Some? ==> r.value < |segs| && InWindow(segs[r.value], x)
    ensures r.Some? ==> forall l :: r.value < l < |segs| ==> !InWindow(segs[l], x)
  {
    if |segs| == 0 then None
    else if InWindow(segs[|segs| - 1], x) then Some(|segs| - 1)
    else
      var r := LastCovering(segs[..|segs| - 1], x);
      assert forall k :: 0 <= k < |segs| - 1 ==> segs[..|segs| - 1][k] == segs[k];
      r
  }

  /** The corrected timestamp that reading x ends up with after every segment
      has been applied in order: the correction of the last segment whose
      window holds x (a later segment overwrites an earlier one), or none when
      no window holds x. */
  function CorrectionFor(segs: seq<Segment>, x: real): (r: Option<real>)
    ensures r.None? <==> forall k :: 0 <= k < |segs| ==> !InWindow(segs[k], x)
    ensures r.Some? ==>
      exists k :: 0 <= k < |segs| && InWindow(segs[k], x) && r.value == Correct(segs[k], x) && (forall l :: k < l < |segs| ==> !InWindow(segs[l], x))
  {
    match LastCovering(segs, x)
    case None => None
    case Some(k) => Some(Correct(segs[k], x))
  }

  /** The IMU clock never decreases along the trace. */
  predicate ImuClockSorted(trace: seq<TimeSync>) {
    forall i, j :: 0 <= i <= j < |trace| ==> trace[i].imuClock <= trace[j].imuClock
  }

  /** Segment k's window runs between the IMU clocks of its two bounds. */
  lemma SegmentWindow(trace: seq<TimeSync>, k: nat)
    requires BuildSegments(trace).Ok? && k < |BuildSegments(trace).value|
    ensures |trace| > 0 && k + 1 < |Bounds(trace)|
    ensures BuildSegments(trace).value[k].startTs == trace[Bounds(trace)[k]].imuClock
    ensures BuildSegments(trace).value[k].endTs == trace[Bounds(trace)[k + 1]].imuClock
  {
    var b := Bounds(trace);
    assert SegmentBetween(trace, b[k], b[k + 1]) == Ok(BuildSegments(trace).value[k]);
  }

  /** The interior segment boundaries are the jump rows: segment k ends, and
      segment k + 1 starts, at the IMU clock of the k-th jump row. */
  lemma JumpRowsAreBoundaries(trace: seq<TimeSync>, k: nat)
    requires BuildSegments(trace).Ok? && k < |Jumps(trace)|
    ensures k + 1 < |BuildSegments(trace).value|
    ensures BuildSegments(trace).value[k].endTs == trace[Jumps(trace)[k]].imuClock
    ensures BuildSegments(trace).value[k + 1].startTs == trace[Jumps(trace)[k]].imuClock
  {
    SegmentWindow(trace, k);
    SegmentWindow(trace, k + 1);
  }

  /** On a trace whose IMU clock never decreases the windows do not overlap,
      so a reading inside the window of segment k is corrected by segment k. */
  lemma CorrectedByOwnSegment(trace: seq<TimeSync>, k: nat, x: real)
    requires ImuClockSorted(trace) && BuildSegments(trace).Ok?
    requires k < |BuildSegments(trace).value| && InWindow(BuildSegments(trace).value[k], x)
    ensures CorrectionFor(BuildSegments(trace).value, x) == Some(Correct(BuildSegments(trace).value[k], x))
  {
    var segs := BuildSegments(trace).value;
    var k' := LastCovering(segs, x).value;
    if k < k' {
      WindowsOrdered(trace, k, k');
    }
    assert k == k';
  }

  /** On a trace whose IMU clock never decreases, an earlier window ends no
      later than a later window starts. */
  lemma WindowsOrdered(trace: seq<TimeSync>, k: nat, l: nat)
    requires ImuClockSorted(trace) && BuildSegments(trace).Ok?
    requires k < l < |BuildSegments(trace).value|
    ensures BuildSegments(trace).value[k].endTs <= BuildSegments(trace).value[l].startTs
  {
    SegmentWindow(trace, k);
    SegmentWindow(trace, l);
    assert Bounds(trace)[k + 1] <= Bounds(trace)[l];
  }

  /** Every reading from the first row's IMU clock up to (not including) the
      last row's lies in some window, whatever order the IMU clock takes. */
  lemma WindowsCoverTrace(trace: seq<TimeSync>, x: real)
    requires BuildSegments(trace).Ok?
    requires |trace| > 0 && trace[0].imuClock <= x < trace[|trace| - 1].imuClock
    ensures CorrectionFor(BuildSegments(trace).value, x).Some?
  {
    var ts := BoundClocks(trace);
    var k := StepContaining(ts, x);
    SegmentWindow(trace, k);
    assert InWindow(BuildSegments(trace).value[k], x);
  }

  /** The IMU clocks of the segment boundary rows, first to last. */
  lemma BoundClocks(trace: seq<TimeSync>) returns (ts: seq<real>)
    requires |trace| > 0
    ensures |ts| == |Bounds(trace)|
    ensures forall k :: 0 <= k < |ts| ==> ts[k] == trace[Bounds(trace)[k]].imuClock
    ensures ts[0] == trace[0].imuClock && ts[|ts| - 1] == trace[|trace| - 1].imuClock
  {
    var b := Bounds(trace);
    ts := seq(|b|, k requires 0 <= k < |b| => trace[b[k]].imuClock);
  }

  /** On a trace whose IMU clock never decreases, only readings from the
      first row's IMU clock up to (not including) the last row's lie in a
      window: everything earlier, and everything from the last row's clock
      on, is left uncorrected. */
  lemma CorrectedWithinTrace(trace: seq<TimeSync>, x: real)
    requires ImuClockSorted(trace) && BuildSegments(trace).Ok?
    ensures CorrectionFor(BuildSegments(trace).value, x).Some? ==>
            |trace| > 0 && trace[0].imuClock <= x < trace[|trace| - 1].imuClock
  {
    var segs := BuildSegments(trace).value;
    if CorrectionFor(segs, x).Some? {
      var k :| 0 <= k < |segs| && InWindow(segs[k], x);
      SegmentWindow(trace, k);
      var b := Bounds(trace);
      assert trace[0].imuClock <= trace[b[k]].imuClock;
      assert trace[b[k + 1]].imuClock <= trace[|trace| - 1].imuClock;
    }
  }

  /** Some step of a sequence holds a value lying between its first and last
      elements. */
  lemma {:induction false} StepContaining(ts: seq<real>, x: real) returns (k: nat)
    requires |ts| >= 1 && ts[0] <= x < ts[|ts| - 1]
    ensures k + 1 < |ts| && ts[k] <= x < ts[k + 1]
    decreases |ts|
  {
    if x < ts[1] {
      k := 0;
    } else {
      var k' := StepContaining(ts[1..], x);
      k := k' + 1;
    }
  }

  /** On a trace whose IMU clock never decreases, the reading equal to the
      last row's IMU clock lies in no window: the last window is half-open. */
  lemma FinalEndUncovered(trace: seq<TimeSync>)
    requires ImuClockSorted(trace) && BuildSegments(trace).Ok?
    ensures |trace| > 0
    ensures CorrectionFor(BuildSegments(trace).value, trace[|trace| - 1].imuClock) == None
  {
    var segs := BuildSegments(trace).value;
    forall k | 0 <= k < |segs|
      ensures !InWindow(segs[k], trace[|trace| - 1].imuClock)
    {
      SegmentWindow(trace, k);
    }
  }

  // ---------------------------------------------------------------------
  // Corrected table
  // ---------------------------------------------------------------------

  /** No field of the sample is missing. */
  predicate Complete(s: ImuSample) {
    s.timestamp.Some? && forall i :: 0 <= i < |s.signals| ==> s.signals[i].Some?
  }

  /** The row of the corrected table that sample s turns into, if any: a
      sample keeps its row when it received a corrected timestamp and no
      field of it is missing. */
  function CorrectSample(segs: seq<Segment>, s: ImuSample): (r: Option<Corrected>)
    ensures r.Some? <==> Complete(s) && CorrectionFor(segs, s.timestamp.value).Some?
    ensures r.Some? ==> r.value.sample == s && CorrectionFor(segs, s.timestamp.value) == Some(r.value.correctTs)
  {
    if !Complete(s) then None
    else
      match CorrectionFor(segs, s.timestamp.value)
      case None => None
      case Some(c) => Some(Corrected(s, c))
  }

  predicate Survives(segs: seq<Segment>, s: ImuSample) {
    CorrectSample(segs, s).Some?
  }

  function Samples(rows: seq<Corrected>): (r: seq<ImuSample>)
    ensures |r| == |rows|
    ensures forall j :: 0 <= j < |rows| ==> r[j] == rows[j].sample
  {
    seq(|rows|, j requires 0 <= j < |rows| => rows[j].sample)
  }

  /** The samples that keep their row under the segments. */
  function Survivors(segs: seq<Segment>): ImuSample -> bool {
    s => Survives(segs, s)
  }

  /** The corrected table: the samples that survive, in their original order
      and multiplicity, each with its corrected timestamp. */
  function ShiftRows(segs: seq<Segment>, imu: seq<ImuSample>): (r: seq<Corrected>)
    ensures Samples(r) == Filter(imu, Survivors(segs))
    ensures forall j :: 0 <= j < |r| ==> CorrectSample(segs, r[j].sample) == Some(r[j])
  {
    if |imu| == 0 then []
    else
      var rest := ShiftRows(segs, imu[1..]);
      match CorrectSample(segs, imu[0])
      case None => rest
      case Some(c) =>
        SamplesCons(c, rest);
        [c] + rest
  }

  lemma SamplesCons(c: Corrected, rest: seq<Corrected>)
    ensures Samples([c] + rest) == [c.sample] + Samples(rest)
  {
    var l, r := Samples([c] + rest), [c.sample] + Samples(rest);
    assert |l| == |r|;
    forall j | 0 <= j < |l|
      ensures l[j] == r[j]
    {
      if j > 0 {
        assert ([c] + rest)[j] == rest[j - 1];
      }
    }
  }

  /** The whole correction: segment the trace, then correct the samples. */
  function ShiftTime(imu: seq<ImuSample>, trace: seq<TimeSync>): (r: Result<seq<Corrected>>)
    ensures r.Err? <==> BuildSegments(trace).Err?
    ensures r.Err? ==> r.error == BuildSegments(trace).error
    ensures r.Ok? ==> |r.value| <= |imu| && IsSubsequence(Samples(r.value), imu)
    ensures r.Ok? ==> forall s :: multiset(Samples(r.value))[s] == if Survives(BuildSegments(trace).value, s) then multiset(imu)[s] else 0
    ensures r.Ok? ==> forall j :: 0 <= j < |r.value| ==>
      Complete(r.value[j].sample) && CorrectionFor(BuildSegments(trace).value, r.value[j].sample.timestamp.value) == Some(r.value[j].correctTs)
  {
    match BuildSegments(trace)
    case Err(e) => Err(e)
    case Ok(segs) =>
      var rows := ShiftRows(segs, imu);
      assert forall s :: Survivors(segs)(s) == Survives(segs, s);
      Ok(rows)
  }

  /** On a trace whose IMU clock never decreases, a complete sample inside
      the window of segment k is kept, with the corrected timestamp that
      segment k gives it. */
  lemma ShiftTimeUsesOwnSegment(imu: seq<ImuSample>, trace: seq<TimeSync>, s: ImuSample, k: nat)
    requires ImuClockSorted(trace) && ShiftTime(imu, trace).Ok?
    requires s in imu && Complete(s)
    requires k < |BuildSegments(trace).value| && InWindow(BuildSegments(trace).value[k], s.timestamp.value)
    ensures Corrected(s, Correct(BuildSegments(trace).value[k], s.timestamp.value)) in ShiftTime(imu, trace).value
  {
    var segs, out := BuildSegments(trace).value, ShiftTime(imu, trace).value;
    var x := s.timestamp.value;
    CorrectedByOwnSegment(trace, k, x);
    assert Survives(segs, s);
    assert multiset(Samples(out))[s] > 0;
    var j :| 0 <= j < |out| && Samples(out)[j] == s;
    assert CorrectionFor(segs, x) == Some(out[j].correctTs);
    assert out[j] == Corrected(s, Correct(segs[k], x));
  }

  /** On a trace whose IMU clock never decreases, no sample stamped exactly
      at the last row's IMU clock is kept. */
  lemma ShiftTimeDropsFinalEnd(imu: seq<ImuSample>, trace: seq<TimeSync>)
    requires ImuClockSorted(trace) && ShiftTime(imu, trace).Ok?
    ensures |trace| > 0
    ensures forall c :: c in ShiftTime(imu, trace).value ==> c.sample.timestamp != Some(trace[|trace| - 1].imuClock)
  {
    FinalEndUncovered(trace);
  }

  /** Every complete sample within the span of the trace is kept, whatever
      order the IMU clock takes. */
  lemma ShiftTimeCoversTrace(imu: seq<ImuSample>, trace: seq<TimeSync>, s: ImuSample)
    requires ShiftTime(imu, trace).Ok?
    requires s in imu && Complete(s)
    requires |trace| > 0 && trace[0].imuClock <= s.timestamp.value < trace[|trace| - 1].imuClock
    ensures s in Samples(ShiftTime(imu, trace).value)
  {
    WindowsCoverTrace(trace, s.timestamp.value);
    assert multiset(imu)[s] > 0;
  }

  /** On a trace whose IMU clock never decreases, every kept sample is
      stamped within the span of the trace: samples before the first row's
      IMU clock, or at or after the last row's, are dropped. */
  lemma ShiftTimeWithinTrace(imu: seq<ImuSample>, trace: seq<TimeSync>)
    requires ImuClockSorted(trace) && ShiftTime(imu, trace).Ok?
    ensures forall c :: c in ShiftTime(imu, trace).value ==>
      c.sample.timestamp.Some? && |trace| > 0 && trace[0].imuClock <= c.sample.timestamp.value < trace[|trace| - 1].imuClock
  {
    var segs, out := BuildSegments(trace).value, ShiftTime(imu, trace).value;
    forall c | c in out
      ensures c.sample.timestamp.Some? && |trace| > 0 && trace[0].imuClock <= c.sample.timestamp.value < trace[|trace| - 1].imuClock
    {
      CorrectedWithinTrace(trace, c.sample.timestamp.value);
    }
  }

  // ---------------------------------------------------------------------
  // A worked trace
  // ---------------------------------------------------------------------

  /** Ten rows one second apart whose drift jumps by 5.1 s between rows 3
      and 4. */
  function JumpTrace(): (t: seq<TimeSync>)
    ensures |t| == 10
  {
    var drifts := [0.1, 0.1, 0.1, 0.1, 5.2, 5.3, 5.2, 5.3, 5.2, 5.3];
    seq(10, i requires 0 <= i < 10 => TimeSync(i as real, 1000.0 + i as real, drifts[i], None))
  }

  /** Row 4 is the only jump row of the worked trace. */
  lemma JumpTraceJumpRows()
    ensures forall i: nat :: IsJump(JumpTrace(), i) <==> i == 4
  {
    var t := JumpTrace();
    forall i: nat
      ensures IsJump(t, i) <==> i == 4
    {
    }
  }

  lemma JumpTraceJumps()
    ensures JumpIndexes(JumpTrace()) == [4, 9]
    ensures Bounds(JumpTrace()) == [0, 4, 9]
  {
    var t := JumpTrace();
    JumpTraceJumpRows();
    var jumps := Jumps(t);
    assert 4 in jumps;
    assert forall k :: 0 <= k < |jumps| ==> jumps[k] == 4;
    assert jumps == [4];
  }

  lemma JumpTraceFirstFit()
    ensures SegmentBetween(JumpTrace(), 0, 4).Ok?
  {
    var t := JumpTrace();
    var xs0 := SystemClocks(t[0..4]);
    assert xs0 == [0.0, 1.0, 2.0, 3.0];
    assert xs0[1..] == [1.0, 2.0, 3.0] && xs0[2..] == [2.0, 3.0] && xs0[3..] == [3.0] && xs0[4..] == [];
    assert LeastSquares.Sum(xs0[4..]) == 0.0 && LeastSquares.Dot(xs0[4..], xs0[4..]) == 0.0;
    assert LeastSquares.Sum(xs0[3..]) == 3.0 && LeastSquares.Dot(xs0[3..], xs0[3..]) == 9.0;
    assert LeastSquares.Sum(xs0[2..]) == 5.0 && LeastSquares.Dot(xs0[2..], xs0[2..]) == 13.0;
    assert LeastSquares.Sum(xs0[1..]) == 6.0 && LeastSquares.Dot(xs0[1..], xs0[1..]) == 14.0;
    assert LeastSquares.Sum(xs0) == 6.0 && LeastSquares.Dot(xs0, xs0) == 14.0;
    assert LeastSquares.Spread(LeastSquares.SumsOf(xs0, Drifts(t[0..4]))) == 20.0;
  }

  lemma JumpTraceSecondFit()
    ensures SegmentBetween(JumpTrace(), 4, 9).Ok?
  {
    var t := JumpTrace();
    var xs1 := SystemClocks(t[4..9]);
    assert xs1 == [4.0, 5.0, 6.0, 7.0, 8.0];
    assert xs1[1..] == [5.0, 6.0, 7.0, 8.0] && xs1[2..] == [6.0, 7.0, 8.0] && xs1[3..] == [7.0, 8.0];
    assert xs1[4..] == [8.0] && xs1[5..] == [];
    assert LeastSquares.Sum(xs1[5..]) == 0.0 && LeastSquares.Dot(xs1[5..], xs1[5..]) == 0.0;
    assert LeastSquares.Sum(xs1[4..]) == 8.0 && LeastSquares.Dot(xs1[4..], xs1[4..]) == 64.0;
    assert LeastSquares.Sum(xs1[3..]) == 15.0 && LeastSquares.Dot(xs1[3..], xs1[3..]) == 113.0;
    assert LeastSquares.Sum(xs1[2..]) == 21.0 && LeastSquares.Dot(xs1[2..], xs1[2..]) == 149.0;
    assert LeastSquares.Sum(xs1[1..]) == 26.0 && LeastSquares.Dot(xs1[1..], xs1[1..]) == 174.0;
    assert LeastSquares.Sum(xs1) == 30.0 && LeastSquares.Dot(xs1, xs1) == 190.0;
    assert LeastSquares.Spread(LeastSquares.SumsOf(xs1, Drifts(t[4..9]))) == 50.0;
  }

  /** Rows 0 .. 3 carry the constant drift 0.1, so the first segment's line
      is that constant. */
  lemma JumpTraceFirstLine()
    ensures SegmentBetween(JumpTrace(), 0, 4).Ok?
    ensures SegmentBetween(JumpTrace(), 0, 4).value.slope == 0.0
    ensures SegmentBetween(JumpTrace(), 0, 4).value.intercept == 0.1
  {
    var t := JumpTrace();
    JumpTraceFirstFit();
    forall i | 0 <= i < 4
      ensures t[i].drift == 0.0 * t[i].systemClock + 0.1
    {
    }
    SegmentFitsLine(t, 0, 4, 0.0, 0.1);
  }

  /** A trace with a single jump row p, not the last row, gives the
      segment from row 0 to row p and the segment from row p to the last row. */
  lemma TwoSegments(t: seq<TimeSync>, p: nat)
    requires 0 < p < |t| - 1 && Bounds(t) == [0, p, |t| - 1]
    requires SegmentBetween(t, 0, p).Ok? && SegmentBetween(t, p, |t| - 1).Ok?
    ensures BuildSegments(t) == Ok([SegmentBetween(t, 0, p).value, SegmentBetween(t, p, |t| - 1).value])
  {
    var r, b := BuildSegments(t), Bounds(t);
    var s0, s1 := SegmentBetween(t, 0, p).value, SegmentBetween(t, p, |t| - 1).value;
    assert |JumpIndexes(t)| == 2;
    forall k | 0 <= k < 2
      ensures SegmentBetween(t, b[k], b[k + 1]).Ok?
    {
      assert k == 0 || k == 1;
    }
    assert !SomeSegmentDegenerate(t);
    assert SegmentBetween(t, b[0], b[1]) == Ok(r.value[0]);
    assert SegmentBetween(t, b[1], b[2]) == Ok(r.value[1]);
    assert r.value == [s0, s1];
  }

  /** The jump is recorded at row 4, the first row after the change, so the
      trace splits into two segments: rows 0 .. 3 are fitted by the constant
      drift 0.1 and their window ends at row 4's IMU clock, and the second
      segment runs from row 4 to the last row. */
  lemma JumpTraceSegments()
    ensures JumpIndexes(JumpTrace()) == [4, 9]
    ensures BuildSegments(JumpTrace()).Ok?
    ensures var segs := BuildSegments(JumpTrace()).value;
      && |segs| == 2
      && segs[0].startTs == 1000.0 && segs[0].endTs == 1004.0
      && segs[0].slope == 0.0 && segs[0].intercept == 0.1
      && segs[1].startTs == 1004.0 && segs[1].endTs == 1009.0
  {
    var t := JumpTrace();
    JumpTraceJumps();
    JumpTraceFirstLine();
    JumpTraceSecondFit();
    TwoSegments(t, 4);
  }
}

=== FILE: driving_intervals.dfy ===
/** The two driving-state filters: the ground truth taken from the CAN-bus
    speed trace, and the proxy taken from the IMU's own motion labels. Both
    turn a per-row on/off flag into intervals by pairing the k-th off-to-on
    edge with the k-th on-to-off edge, and then select corrected IMU samples
    by their corrected timestamp. */
module DrivingIntervals {
  import opened Common
  import DriftCorrection

  type Corrected = DriftCorrection.Corrected
  type TimeSync = DriftCorrection.TimeSync

  /** A speed at or below this magnitude counts as standing still. */
  const StationarySpeed: real := 0.5
  /** A CAN driving interval must last strictly longer than this to be kept. */
  const SpeedNoiseWindow: real := 0.5
  /** A motion interval of the IMU also covers this lead-in before its start. */
  const BufferTime: real := 30.0
  /** The motion label the IMU gives a vehicle at rest. */
  const Stationary: string := "stationary"

  /** A closed time interval [start, end]. */
  datatype Interval = Interval(start: real, end: real)

  /** One row of the CAN-bus trace; the speed may be missing. */
  datatype CanRow = CanRow(timestamp: real, speed: Option<real>)

  // ---------------------------------------------------------------------
  // Edges of an on/off flag and their pairing
  // ---------------------------------------------------------------------

  function Bit(b: bool): int {
    if b then 1 else 0
  }

  /** The flag's first difference at row i is +1. Row 0 has no previous row,
      so it is never an edge. */
  predicate RisesAt(on: seq<bool>, i: nat) {
    1 <= i < |on| && Bit(on[i]) - Bit(on[i - 1]) == 1
  }

  /** The flag's first difference at row i is -1. */
  predicate FallsAt(on: seq<bool>, i: nat) {
    1 <= i < |on| && Bit(on[i]) - Bit(on[i - 1]) == -1
  }

  /** The rows at which the flag turns on, in increasing order. */
  function Rises(on: seq<bool>): (r: seq<nat>)
    ensures forall k :: 0 <= k < |r| ==> 1 <= r[k] < |on| && !on[r[k] - 1] && on[r[k]]
    ensures forall i :: 1 <= i < |on| && !on[i - 1] && on[i] ==> i in r
    ensures forall k, l :: 0 <= k < l < |r| ==> r[k] < r[l]
  {
    IndicesWhere(0, |on|, (i: nat) => RisesAt(on, i))
  }

  /** The rows at which the flag turns off, in increasing order. */
  function Falls(on: seq<bool>): (r: seq<nat>)
    ensures forall k :: 0 <= k < |r| ==> 1 <= r[k] < |on| && on[r[k] - 1] && !on[r[k]]
    ensures forall i :: 1 <= i < |on| && on[i - 1] && !on[i] ==> i in r
    ensures forall k, l :: 0 <= k < l < |r| ==> r[k] < r[l]
  {
    IndicesWhere(0, |on|, (i: nat) => FallsAt(on, i))
  }

  /** The times of the given rows. */
  function At(times: seq<real>, rows: seq<nat>): (r: seq<real>)
    requires forall k :: 0 <= k < |rows| ==> rows[k] < |times|
    ensures |r| == |rows| && forall k :: 0 <= k < |rows| ==> r[k] == times[rows[k]]
  {
    seq(|rows|, k requires 0 <= k < |rows| => times[rows[k]])
  }

  /** The k-th start paired with the k-th end; the surplus of the longer list
      is dropped. */
  function Pair(starts: seq<real>, ends: seq<real>): (r: seq<Interval>)
    ensures |r| == Min(|starts|, |ends|)
    ensures forall k :: 0 <= k < |r| ==> r[k] == Interval(starts[k], ends[k])
  {
    seq(Min(|starts|, |ends|), k requires 0 <= k < Min(|starts|, |ends|) => Interval(starts[k], ends[k]))
  }

  /** The intervals of a flag sampled at the given times: the time of the
      k-th rise paired with the time of the k-th fall. */
  function Intervals(times: seq<real>, on: seq<bool>): (r: seq<Interval>)
    requires |times| == |on|
    ensures |r| == Min(|Rises(on)|, |Falls(on)|)
    ensures forall k :: 0 <= k < |r| ==> r[k] == Interval(times[Rises(on)[k]], times[Falls(on)[k]])
  {
    Pair(At(times, Rises(on)), At(times, Falls(on)))
  }

  /** A flag that is on at its first row turns off before it next turns on:
      the first fall precedes the first rise. */
  lemma {:induction false} FirstFallBeforeFirstRise(on: seq<bool>)
    requires |on| > 0 && on[0] && |Rises(on)| > 0
    ensures |Falls(on)| > 0 && Falls(on)[0] < Rises(on)[0]
  {
    var r := Rises(on)[0];
    var f := FirstOff(on, r - 1);
    assert f in Falls(on);
    var k :| 0 <= k < |Falls(on)| && Falls(on)[k] == f;
    assert Falls(on)[0] <= f;
  }

  /** Some row in 1 .. j turns the flag off when it is on at row 0 and off at
      row j. */
  lemma {:induction false} FirstOff(on: seq<bool>, j: nat) returns (f: nat)
    requires j < |on| && on[0] && !on[j]
    ensures 1 <= f <= j && on[f - 1] && !on[f]
    decreases j
  {
    if on[j - 1] {
      f := j;
    } else {
      f := FirstOff(on, j - 1);
    }
  }

  /** The times strictly increase along the trace. */
  predicate Ascending(times: seq<real>) {
    forall i, j :: 0 <= i < j < |times| ==> times[i] < times[j]
  }

  /** When the flag is on at the first row of a time-ordered trace, the first
      interval ends before it starts: the pairing is off by one edge. */
  lemma FirstIntervalInverted(times: seq<real>, on: seq<bool>)
    requires |times| == |on| > 0 && Ascending(times) && on[0]
    requires |Intervals(times, on)| > 0
    ensures Intervals(times, on)[0].end < Intervals(times, on)[0].start
  {
    FirstFallBeforeFirstRise(on);
  }

  // ---------------------------------------------------------------------
  // Ground truth from the CAN-bus speed
  // ---------------------------------------------------------------------

  predicate HasSpeed(row: CanRow) {
    row.speed.Some?
  }

  /** The vehicle is moving faster than the stationary threshold, in either
      direction. */
  predicate IsDriving(row: CanRow) {
    row.speed.Some? && Abs(row.speed.value) > StationarySpeed
  }

  /** The timestamps of the CAN rows that carry a speed. */
  function SpeedTimes(can: seq<CanRow>): (r: seq<real>)
    ensures |r| == |Filter(can, HasSpeed)|
    ensures forall i :: 0 <= i < |r| ==> r[i] == Filter(can, HasSpeed)[i].timestamp
  {
    var rows := Filter(can, HasSpeed);
    seq(|rows|, i requires 0 <= i < |rows| => rows[i].timestamp)
  }

  /** The driving flag of the CAN rows that carry a speed. */
  function DrivingFlags(can: seq<CanRow>): (r: seq<bool>)
    ensures |r| == |Filter(can, HasSpeed)|
    ensures forall i :: 0 <= i < |r| ==> r[i] == IsDriving(Filter(can, HasSpeed)[i])
  {
    var rows := Filter(can, HasSpeed);
    seq(|rows|, i requires 0 <= i < |rows| => IsDriving(rows[i]))
  }

  /** On a trace in which every row carries a speed, the times and flags are
      taken row by row. */
  lemma AllSpeeds(can: seq<CanRow>)
    requires forall i :: 0 <= i < |can| ==> can[i].speed.Some?
    ensures |SpeedTimes(can)| == |DrivingFlags(can)| == |can|
    ensures forall i :: 0 <= i < |can| ==> SpeedTimes(can)[i] == can[i].timestamp
    ensures forall i :: 0 <= i < |can| ==> DrivingFlags(can)[i] == IsDriving(can[i])
  {
    FilterKeepsAll(can, HasSpeed);
  }

  /** The driving intervals of the CAN trace, taken over the rows that carry
      a speed. */
  function CanIntervals(can: seq<CanRow>): (r: seq<Interval>)
    ensures |r| == Min(|Rises(DrivingFlags(can))|, |Falls(DrivingFlags(can))|)
    ensures forall k :: 0 <= k < |r| ==>
      r[k] == Interval(Filter(can, HasSpeed)[Rises(DrivingFlags(can))[k]].timestamp,
                       Filter(can, HasSpeed)[Falls(DrivingFlags(can))[k]].timestamp)
  {
    Intervals(SpeedTimes(can), DrivingFlags(can))
  }

  /** The interval lasts longer than the noise window. */
  predicate Lasting(iv: Interval) {
    iv.end - iv.start > SpeedNoiseWindow
  }

  /** The CAN driving intervals that are not noise, in order. */
  function KeptIntervals(can: seq<CanRow>): (r: seq<Interval>)
    ensures IsSubsequence(r, CanIntervals(can))
    ensures forall iv :: multiset(r)[iv] == if Lasting(iv) then multiset(CanIntervals(can))[iv] else 0
    ensures forall iv :: iv in r <==> iv in CanIntervals(can) && iv.end - iv.start > SpeedNoiseWindow
  {
    Filter(CanIntervals(can), Lasting)
  }

  /** t lies in the closed interval. */
  predicate Within(iv: Interval, t: real) {
    iv.start <= t <= iv.end
  }

  /** t lies in some interval of the list. */
  predicate InAny(ivs: seq<Interval>, t: real) {
    exists k :: 0 <= k < |ivs| && Within(ivs[k], t)
  }

  /** The number of intervals of the list that contain t. */
  function Covering(ivs: seq<Interval>, t: real): (r: nat)
    ensures r <= |ivs|
    ensures r > 0 <==> InAny(ivs, t)
  {
    if |ivs| == 0 then 0
    else
      assert forall k :: 1 <= k < |ivs| ==> ivs[k] == ivs[1..][k - 1];
      (if Within(ivs[0], t) then 1 else 0) + Covering(ivs[1..], t)
  }

  function InInterval(iv: Interval): Corrected -> bool {
    (c: Corrected) => Within(iv, c.correctTs)
  }

  /** The samples selected by each interval in turn, concatenated: a sample
      appears once for every interval that contains its corrected timestamp. */
  function {:induction false} Gather(imu: seq<Corrected>, ivs: seq<Interval>): (r: seq<Corrected>)
    ensures forall c :: multiset(r)[c] == Covering(ivs, c.correctTs) * multiset(imu)[c]
    ensures forall c :: c in r <==> c in imu && InAny(ivs, c.correctTs)
  {
    if |ivs| == 0 then []
    else
      var head, rest := Filter(imu, InInterval(ivs[0])), Gather(imu, ivs[1..]);
      forall c
        ensures multiset(head + rest)[c] == Covering(ivs, c.correctTs) * multiset(imu)[c]
      {
        ConcatCount(head, rest, imu, c, if Within(ivs[0], c.correctTs) then 1 else 0, Covering(ivs[1..], c.correctTs));
      }
      head + rest
  }

  /** Concatenating b copies and n copies of an element's count gives b + n
      copies. */
  lemma ConcatCount(head: seq<Corrected>, rest: seq<Corrected>, imu: seq<Corrected>, c: Corrected, b: nat, n: nat)
    requires multiset(head)[c] == b * multiset(imu)[c]
    requires multiset(rest)[c] == n * multiset(imu)[c]
    ensures multiset(head + rest)[c] == (b + n) * multiset(imu)[c]
  {
    assert multiset(head + rest) == multiset(head) + multiset(rest);
  }

  /** The CAN driving data: the corrected samples inside each kept interval,
      concatenated in interval order. Without any kept interval there is
      nothing to concatenate and the filter fails. */
  function CanDrivingData(can: seq<CanRow>, imu: seq<Corrected>): (r: Result<seq<Corrected>>)
    ensures r.Err? <==> KeptIntervals(can) == []
    ensures r.Err? ==> r.error == NothingToConcatenate
    ensures r.Ok? ==> forall c :: multiset(r.value)[c] == Covering(KeptIntervals(can), c.correctTs) * multiset(imu)[c]
    ensures r.Ok? ==> forall c :: c in r.value <==> c in imu && InAny(KeptIntervals(can), c.correctTs)
  {
    var kept := KeptIntervals(can);
    if |kept| == 0 then Err(NothingToConcatenate) else Ok(Gather(imu, kept))
  }

  // ---------------------------------------------------------------------
  // Proxy from the IMU motion labels
  // ---------------------------------------------------------------------

  /** Any label other than "stationary", a missing one included, counts as
      moving. */
  function Moving(state: Option<string>): bool {
    state != Some(Stationary)
  }

  /** The moving flag of each row of the time-sync trace. */
  function MotionFlags(trace: seq<TimeSync>): (r: seq<bool>)
    ensures |r| == |trace| && forall i :: 0 <= i < |trace| ==> r[i] == Moving(trace[i].motionState)
  {
    seq(|trace|, i requires 0 <= i < |trace| => Moving(trace[i].motionState))
  }

  /** The motion intervals of the time-sync trace, timed by its system
      clock: interval k runs from the row where the label turns to moving
      for the k-th time to the row where it turns back to stationary for the
      k-th time. */
  function MotionIntervals(trace: seq<TimeSync>): (r: seq<Interval>)
    ensures |r| == Min(|Rises(MotionFlags(trace))|, |Falls(MotionFlags(trace))|)
    ensures forall k :: 0 <= k < |r| ==>
      r[k] == Interval(trace[Rises(MotionFlags(trace))[k]].systemClock, trace[Falls(MotionFlags(trace))[k]].systemClock)
  {
    Intervals(seq(|trace|, i requires 0 <= i < |trace| => trace[i].systemClock),
              seq(|trace|, i requires 0 <= i < |trace| => Moving(trace[i].motionState)))
  }

  /** t lies in the interval extended backwards by the lead-in buffer. */
  predicate Buffered(iv: Interval, t: real) {
    iv.start - BufferTime <= t <= iv.end
  }

  predicate InAnyBuffer(ivs: seq<Interval>, t: real) {
    exists k :: 0 <= k < |ivs| && Buffered(ivs[k], t)
  }

  /** The IMU driving data: the corrected samples, in order, whose corrected
      timestamp lies in some buffered motion interval. */
  function ImuDrivingData(imu: seq<Corrected>, trace: seq<TimeSync>): (r: seq<Corrected>)
    ensures IsSubsequence(r, imu)
    ensures forall c :: multiset(r)[c] == if InAnyBuffer(MotionIntervals(trace), c.correctTs) then multiset(imu)[c] else 0
    ensures forall c :: c in r <==> c in imu && InAnyBuffer(MotionIntervals(trace), c.correctTs)
  {
    var ivs := MotionIntervals(trace);
    Filter(imu, (c: Corrected) => InAnyBuffer(ivs, c.correctTs))
  }

  // ---------------------------------------------------------------------
  // Properties of the two filters
  // ---------------------------------------------------------------------

  /** A CAN trace whose first speed row is already driving pairs its first
      fall with its first rise: the first interval runs backwards and the
      noise filter drops it, together with the driving it should have
      covered. */
  lemma DrivingAtStartDropsFirstInterval(can: seq<CanRow>)
    requires |DrivingFlags(can)| > 0 && DrivingFlags(can)[0]
    requires Ascending(SpeedTimes(can))
    requires |CanIntervals(can)| > 0
    ensures CanIntervals(can)[0].end < CanIntervals(can)[0].start
    ensures !Lasting(CanIntervals(can)[0])
  {
    FirstIntervalInverted(SpeedTimes(can), DrivingFlags(can));
  }

  /** A flag that is never on has no rising edge. */
  lemma {:induction false} NeverOnNoRise(on: seq<bool>)
    requires forall i :: 0 <= i < |on| ==> !on[i]
    ensures Rises(on) == []
  {
    IncreasingBounded(Rises(on), 0, 0);
  }

  /** A time-sync trace labelled "stationary" throughout has no motion
      interval, so no sample is driving data. */
  lemma StationaryTraceSelectsNothing(imu: seq<Corrected>, trace: seq<TimeSync>)
    requires forall i :: 0 <= i < |trace| ==> trace[i].motionState == Some(Stationary)
    ensures MotionIntervals(trace) == []
    ensures ImuDrivingData(imu, trace) == []
  {
    var on := seq(|trace|, i requires 0 <= i < |trace| => Moving(trace[i].motionState));
    NeverOnNoRise(on);
  }

  /** A CAN trace that never exceeds the stationary speed has no driving
      interval, and the CAN filter has nothing to concatenate. */
  lemma StandingCanFails(can: seq<CanRow>, imu: seq<Corrected>)
    requires forall i :: 0 <= i < |can| ==> !IsDriving(can[i])
    ensures CanIntervals(can) == []
    ensures CanDrivingData(can, imu) == Err(NothingToConcatenate)
  {
    var rows := Filter(can, HasSpeed);
    forall i | 0 <= i < |rows|
      ensures !DrivingFlags(can)[i]
    {
      assert rows[i] in rows;
    }
    NeverOnNoRise(DrivingFlags(can));
  }

  /** A sample up to the buffer time before a motion interval starts is
      driving data. */
  lemma LeadInIsDriving(imu: seq<Corrected>, trace: seq<TimeSync>, k: nat, c: Corrected)
    requires k < |MotionIntervals(trace)| && c in imu
    requires MotionIntervals(trace)[k].start - BufferTime <= c.correctTs <= MotionIntervals(trace)[k].start
    requires MotionIntervals(trace)[k].start <= MotionIntervals(trace)[k].end
    ensures c in ImuDrivingData(imu, trace)
  {
    assert Buffered(MotionIntervals(trace)[k], c.correctTs);
  }

  /** A sample later than the end of every motion interval is not driving
      data. */
  lemma AfterEveryIntervalNotDriving(imu: seq<Corrected>, trace: seq<TimeSync>, c: Corrected)
    requires forall k :: 0 <= k < |MotionIntervals(trace)| ==> MotionIntervals(trace)[k].end < c.correctTs
    ensures c !in ImuDrivingData(imu, trace)
  {
  }

  /** One driving burst from t1 to t2 between two standing rows: the CAN
      filter keeps it exactly when it lasts longer than the noise window. */
  lemma SingleBurst(t0: real, t1: real, t2: real, v: real, imu: seq<Corrected>)
    requires Abs(v) > StationarySpeed
    ensures var can := [CanRow(t0, Some(0.0)), CanRow(t1, Some(v)), CanRow(t2, Some(0.0))];
            CanDrivingData(can, imu).Err? <==> t2 - t1 <= SpeedNoiseWindow
  {
    var can := [CanRow(t0, Some(0.0)), CanRow(t1, Some(v)), CanRow(t2, Some(0.0))];
    BurstIntervals(can);
    if t2 - t1 > SpeedNoiseWindow {
      assert Interval(t1, t2) in KeptIntervals(can);
    } else {
      FilterDropsAll(CanIntervals(can), Lasting);
    }
  }

  lemma BurstIntervals(can: seq<CanRow>)
    requires |can| == 3 && forall i :: 0 <= i < |can| ==> can[i].speed.Some?
    requires !IsDriving(can[0]) && IsDriving(can[1]) && !IsDriving(can[2])
    ensures CanIntervals(can) == [Interval(can[1].timestamp, can[2].timestamp)]
  {
    AllSpeeds(can);
    var times, on := SpeedTimes(can), DrivingFlags(can);
    RisesOf010(on);
    FallsOf010(on);
    OnePair(times, on);
  }

  /** A flag that rises once and falls at least once has the one interval
      from its rise to its first fall. */
  lemma OnePair(times: seq<real>, on: seq<bool>)
    requires |times| == |on| && |Rises(on)| == 1 && |Falls(on)| >= 1
    ensures Intervals(times, on) == [Interval(times[Rises(on)[0]], times[Falls(on)[0]])]
  {
  }

  lemma RisesOf010(on: seq<bool>)
    requires |on| == 3 && !on[0] && on[1] && !on[2]
    ensures Rises(on) == [1]
  {
    OnlyElement(Rises(on), 1);
  }

  lemma FallsOf010(on: seq<bool>)
    requires |on| == 3 && !on[0] && on[1] && !on[2]
    ensures Falls(on) == [2]
  {
    OnlyElement(Falls(on), 2);
  }

  /** A motion state that is missing counts as moving: a trace labelled
      stationary, missing, stationary at system times 0, 1, 2 has the one
      motion interval [1, 2]. */
  lemma MissingStateIsMotion()
    ensures var trace := [DriftCorrection.TimeSync(0.0, 0.0, 0.0, Some(Stationary)),
                          DriftCorrection.TimeSync(1.0, 1.0, 0.0, None),
                          DriftCorrection.TimeSync(2.0, 2.0, 0.0, Some(Stationary))];
            MotionIntervals(trace) == [Interval(1.0, 2.0)]
  {
    var trace := [DriftCorrection.TimeSync(0.0, 0.0, 0.0, Some(Stationary)),
                  DriftCorrection.TimeSync(1.0, 1.0, 0.0, None),
                  DriftCorrection.TimeSync(2.0, 2.0, 0.0, Some(Stationary))];
    var on := seq(|trace|, i requires 0 <= i < |trace| => Moving(trace[i].motionState));
    assert on == [false, true, false];
    RisesOf010(on);
    FallsOf010(on);
  }

  /** A CAN trace that starts in motion, stops at t1 and drives again from
      t2 to t3 yields no CAN driving data at all, however long the second
      burst: the pairing matches the start at t2 with the stop at t1. */
  lemma StartInMotionLosesBurst(t0: real, t1: real, t2: real, t3: real, v: real, imu: seq<Corrected>)
    requires Abs(v) > StationarySpeed && t1 <= t2
    ensures var can := [CanRow(t0, Some(v)), CanRow(t1, Some(0.0)), CanRow(t2, Some(v)), CanRow(t3, Some(0.0))];
            CanDrivingData(can, imu) == Err(NothingToConcatenate)
  {
    var can := [CanRow(t0, Some(v)), CanRow(t1, Some(0.0)), CanRow(t2, Some(v)), CanRow(t3, Some(0.0))];
    StartInMotionIntervals(can);
    FilterDropsAll(CanIntervals(can), Lasting);
  }

  lemma StartInMotionIntervals(can: seq<CanRow>)
    requires |can| == 4 && forall i :: 0 <= i < |can| ==> can[i].speed.Some?
    requires IsDriving(can[0]) && !IsDriving(can[1]) && IsDriving(can[2]) && !IsDriving(can[3])
    ensures CanIntervals(can) == [Interval(can[2].timestamp, can[1].timestamp)]
  {
    AllSpeeds(can);
    var times, on := SpeedTimes(can), DrivingFlags(can);
    RisesOf1010(on);
    FallsOf1010(on);
    OnePair(times, on);
  }

  lemma RisesOf1010(on: seq<bool>)
    requires |on| == 4 && on[0] && !on[1] && on[2] && !on[3]
    ensures Rises(on) == [2]
  {
    OnlyElement(Rises(on), 2);
  }

  lemma FallsOf1010(on: seq<bool>)
    requires |on| == 4 && on[0] && !on[1] && on[2] && !on[3]
    ensures |Falls(on)| > 0 && Falls(on)[0] == 1
  {
    var fs := Falls(on);
    assert 1 in fs;
    var k :| 0 <= k < |fs| && fs[k] == 1;
    assert fs[0] <= fs[k];
  }
}

=== FILE: least_squares.dfy ===
/** Ordinary least-squares fit of a straight line `y = slope * x + intercept`
    to a finite set of points, the degree-1 polynomial fit that each drift
    segment uses. The fit is given in closed form over exact reals.

    Every arithmetic relation between the sums is named by a predicate, so
    that the proofs combine them by name and leave the nonlinear algebra to
    small lemmas over plain reals. */
module LeastSquares {

  datatype Line = Line(slope: real, intercept: real)

  function Sum(xs: seq<real>): real {
    if |xs| == 0 then 0.0 else xs[0] + Sum(xs[1..])
  }

  /** The sum of the pairwise products of two equally long sequences. */
  function Dot(xs: seq<real>, ys: seq<real>): real
    requires |xs| == |ys|
  {
    if |xs| == 0 then 0.0 else xs[0] * ys[0] + Dot(xs[1..], ys[1..])
  }

  /** The five sums over a set of points that the normal equations use: the
      number of points and the sums of x, y, x * x and x * y. */
  datatype Sums = Sums(n: real, sx: real, sy: real, sxx: real, sxy: real)

  function SumsOf(xs: seq<real>, ys: seq<real>): Sums
    requires |xs| == |ys|
  {
    Sums(|xs| as real, Sum(xs), Sum(ys), Dot(xs, xs), Dot(xs, ys))
  }

  /** n * sum(x^2) - (sum x)^2: the determinant of the normal equations. It is
      zero exactly when the abscissae do not spread, which includes every set
      of fewer than two points. */
  function Spread(s: Sums): real {
    s.n * s.sxx - s.sx * s.sx
  }

  /** The points (xs[i], ys[i]) determine a unique least-squares line. */
  predicate Determined(xs: seq<real>, ys: seq<real>) {
    |xs| == |ys| && Spread(SumsOf(xs, ys)) != 0.0
  }

  lemma DeterminedNeedsTwoPoints(xs: seq<real>, ys: seq<real>)
    requires Determined(xs, ys)
    ensures |xs| >= 2
  {
    if |xs| == 1 {
      assert Sum(xs) == xs[0];
      assert Dot(xs, xs) == xs[0] * xs[0];
    }
  }

  /** The line r solves the normal equations
        n * intercept + sx * slope == sy
        sx * intercept + sxx * slope == sxy
      whose coefficients are the sums s. */
  predicate SolvesSums(s: Sums, r: Line) {
    && s.n * r.intercept + s.sx * r.slope == s.sy
    && s.sx * r.intercept + s.sxx * r.slope == s.sxy
  }

  /** The line r satisfies both normal equations of the points: the gradient
      of the sum of squared residuals vanishes at r. */
  predicate SolvesNormalEquations(xs: seq<real>, ys: seq<real>, r: Line)
    requires |xs| == |ys|
  {
    SolvesSums(SumsOf(xs, ys), r)
  }

  /** The least-squares line of the points (xs[i], ys[i]). */
  function Fit(xs: seq<real>, ys: seq<real>): (r: Line)
    requires Determined(xs, ys)
    ensures SolvesNormalEquations(xs, ys, r)
  {
    DeterminedNeedsTwoPoints(xs, ys);
    Solve(SumsOf(xs, ys))
  }

  /** Cramer's rule for the normal equations with coefficients s. */
  function Solve(s: Sums): (r: Line)
    requires s.n > 0.0 && Spread(s) != 0.0
    ensures SolvesSums(s, r)
  {
    var slope := (s.n * s.sxy - s.sx * s.sy) / Spread(s);
    var intercept := (s.sy - slope * s.sx) / s.n;
    NormalEquations(s.n, s.sx, s.sy, s.sxx, s.sxy, slope, intercept);
    Line(slope, intercept)
  }

  /** The closed-form coefficients solve the two normal equations. */
  lemma NormalEquations(n: real, sx: real, sy: real, sxx: real, sxy: real, slope: real, intercept: real)
    requires n > 0.0 && n * sxx - sx * sx != 0.0
    requires slope == (n * sxy - sx * sy) / (n * sxx - sx * sx)
    requires intercept == (sy - slope * sx) / n
    ensures SolvesSums(Sums(n, sx, sy, sxx, sxy), Line(slope, intercept))
  {
    var d := n * sxx - sx * sx;
    assert n * intercept == sy - slope * sx;
    assert slope * d == n * sxy - sx * sy;
    calc {
      n * (sx * intercept + sxx * slope);
      sx * (n * intercept) + n * sxx * slope;
      sx * (sy - slope * sx) + n * sxx * slope;
      sx * sy + slope * d;
      n * sxy;
    }
  }

  /** The point (x, y) lies on the line y = a * x + b. */
  predicate Through(a: real, b: real, x: real, y: real) {
    y == a * x + b
  }

  /** Every point (xs[i], ys[i]) lies on the line y = a * x + b. */
  predicate OnLine(xs: seq<real>, ys: seq<real>, a: real, b: real)
    requires |xs| == |ys|
  {
    |xs| == 0 || (Through(a, b, xs[0], ys[0]) && OnLine(xs[1..], ys[1..], a, b))
  }

  lemma {:induction false} PointwiseOnLine(xs: seq<real>, ys: seq<real>, a: real, b: real)
    requires |xs| == |ys|
    requires forall i :: 0 <= i < |xs| ==> Through(a, b, xs[i], ys[i])
    ensures OnLine(xs, ys, a, b)
  {
    if |xs| > 0 {
      PointwiseOnLine(xs[1..], ys[1..], a, b);
    }
  }

  /** The sums over points on the line y = a * x + b: the ordinates add up to
      a * sx + n * b and the products x * y add up to a * sxx + b * sx. */
  predicate SumsOnLine(s: Sums, a: real, b: real) {
    s.sy == a * s.sx + s.n * b && s.sxy == a * s.sxx + b * s.sx
  }

  lemma {:induction false} SumsOfPointsOnLine(xs: seq<real>, ys: seq<real>, a: real, b: real)
    requires |xs| == |ys| && OnLine(xs, ys, a, b)
    ensures SumsOnLine(SumsOf(xs, ys), a, b)
  {
    if |xs| > 0 {
      SumsOfPointsOnLine(xs[1..], ys[1..], a, b);
      SumsHead(xs, ys);
      SumsStep(xs[0], ys[0], a, b, SumsOf(xs[1..], ys[1..]), SumsOf(xs, ys));
    }
  }

  /** The sums s' are the sums s with the point (x, y) added. */
  predicate AddsPoint(s': Sums, x: real, y: real, s: Sums) {
    && s'.n == 1.0 + s.n && s'.sx == x + s.sx && s'.sy == y + s.sy
    && s'.sxx == x * x + s.sxx && s'.sxy == x * y + s.sxy
  }

  /** The sums over a non-empty sequence of points are those over the rest
      with the first point added. */
  lemma SumsHead(xs: seq<real>, ys: seq<real>)
    requires |xs| == |ys| > 0
    ensures AddsPoint(SumsOf(xs, ys), xs[0], ys[0], SumsOf(xs[1..], ys[1..]))
  {
  }

  /** Adding a point on the line y = a * x + b to sums over points on the
      line keeps them on the line. */
  lemma SumsStep(x: real, y: real, a: real, b: real, s: Sums, s': Sums)
    requires Through(a, b, x, y) && SumsOnLine(s, a, b) && AddsPoint(s', x, y, s)
    ensures SumsOnLine(s', a, b)
  {
    calc {
      s'.sxy;
      x * (a * x + b) + s.sxy;
      a * (x * x) + b * x + a * s.sxx + b * s.sx;
      a * s'.sxx + b * s'.sx;
    }
  }

  /** When every point lies on the line y = a * x + b, the fit returns that
      line: the fit is exact on exact data. */
  lemma FitRecoversLine(xs: seq<real>, ys: seq<real>, a: real, b: real)
    requires Determined(xs, ys) && OnLine(xs, ys, a, b)
    ensures Fit(xs, ys) == Line(a, b)
  {
    NormalSolutionIsLine(xs, ys, Fit(xs, ys), a, b);
  }

  /** A line satisfying the normal equations of points that lie on the line
      y = a * x + b is that line. */
  lemma NormalSolutionIsLine(xs: seq<real>, ys: seq<real>, r: Line, a: real, b: real)
    requires Determined(xs, ys) && OnLine(xs, ys, a, b)
    requires SolvesNormalEquations(xs, ys, r)
    ensures r == Line(a, b)
  {
    SumsOfPointsOnLine(xs, ys, a, b);
    UniqueSolution(SumsOf(xs, ys), r, a, b);
  }

  /** The normal equations have at most one solution when their determinant
      is not zero, so sums taken over points on a line are solved by that
      line only. */
  lemma UniqueSolution(s: Sums, r: Line, a: real, b: real)
    requires Spread(s) != 0.0
    requires SolvesSums(s, r) && SumsOnLine(s, a, b)
    ensures r == Line(a, b)
  {
    var n, sx, sxx := s.n, s.sx, s.sxx;
    var u, v := r.slope - a, r.intercept - b;
    assert n * v + sx * u == 0.0;
    assert sx * v + sxx * u == 0.0;
    assert u * (n * sxx - sx * sx) == n * (sx * v + sxx * u) - sx * (n * v + sx * u);
    assert u == 0.0;
  }
}

=== FILE: scoring.dfy ===
/** The two rates that score the IMU motion proxy against reference data.
    Both compare SETS of corrected timestamps, so a timestamp shared by
    several samples counts once. */
module Scoring {
  import opened Common
  import DriftCorrection
  import opened DrivingIntervals

  type Corrected = DriftCorrection.Corrected

  /** The distinct corrected timestamps of the samples. */
  function Stamps(rows: seq<Corrected>): set<real> {
    set c | c in rows :: c.correctTs
  }

  /** The distinct corrected timestamps of the samples that lie in some
      interval of the list. */
  function StampsIn(rows: seq<Corrected>, ivs: seq<Interval>): set<real> {
    set c | c in rows && InAny(ivs, c.correctTs) :: c.correctTs
  }

  /** num / den over the reals. */
  function Ratio(num: nat, den: nat): (r: real)
    requires den > 0
    ensures r >= 0.0
    ensures r <= 1.0 <==> num <= den
    ensures r == 1.0 <==> num == den
    ensures r == 0.0 <==> num == 0
  {
    var q := num as real / den as real;
    RatioScales(q, num as real, den as real);
    q
  }

  lemma RatioScales(q: real, num: real, den: real)
    requires den > 0.0 && num >= 0.0 && q == num / den
    ensures q >= 0.0
    ensures q <= 1.0 <==> num <= den
    ensures q == 1.0 <==> num == den
    ensures q == 0.0 <==> num == 0.0
  {
    assert q * den == num;
    if q > 1.0 {
      assert q * den > den;
    }
    if q < 1.0 {
      assert q * den < den;
    }
  }

  /** A subset is no larger than its superset, and it is the whole superset
      exactly when the two have the same size. */
  lemma SubsetSize<T>(a: set<T>, b: set<T>)
    requires a <= b
    ensures |a| <= |b|
    ensures |a| == |b| <==> a == b
  {
    assert b == a + (b - a);
    assert |b| == |a| + |b - a|;
    if |b - a| == 0 {
      assert b - a == {};
    } else {
      var x :| x in b - a;
    }
  }

  lemma DisjointMeansNoCommon<T>(a: set<T>, b: set<T>)
    ensures a * b == {} <==> a !! b
  {
    if !(a !! b) {
      var x :| x in a && x in b;
      assert x in a * b;
    }
  }

  /** The stamps of a non-empty table are not empty. */
  lemma StampsEmpty(rows: seq<Corrected>)
    ensures Stamps(rows) == {} <==> |rows| == 0
  {
    if |rows| > 0 {
      assert rows[0].correctTs in Stamps(rows);
    }
  }

  /** The true positive rate: the share of the CAN driving timestamps that
      the IMU proxy also flags and that fall inside a reference driving
      event.
      The proxy's timestamps are selected with a row-wise test. On a proxy
      table without rows that test yields an empty non-boolean column, so the
      selection keeps no columns and the timestamp lookup fails: an empty
      proxy fails with MissingColumn. Without CAN driving data the rate is
      undefined. */
  function Tpr(canDr: seq<Corrected>, imuDr: seq<Corrected>, driving: seq<Interval>): (r: Result<real>)
    ensures r.Err? <==> |imuDr| == 0 || |canDr| == 0
    ensures r.Err? ==> r.error == (if |imuDr| == 0 then MissingColumn else EmptyDenominator)
    ensures r.Ok? ==> 0.0 <= r.value <= 1.0
    ensures r.Ok? ==> (r.value == 1.0 <==> Stamps(canDr) <= StampsIn(imuDr, driving))
    ensures r.Ok? ==> (r.value == 0.0 <==> Stamps(canDr) !! StampsIn(imuDr, driving))
  {
    var truth, proxy := Stamps(canDr), StampsIn(imuDr, driving);
    StampsEmpty(canDr);
    if |imuDr| == 0 then Err(MissingColumn)
    else if |truth| == 0 then Err(EmptyDenominator)
    else
      SubsetSize(truth * proxy, truth);
      assert truth * proxy == truth <==> truth <= proxy;
      DisjointMeansNoCommon(truth, proxy);
      Ok(Ratio(|truth * proxy|, |truth|))
  }

  /** The false positive rate: the number of distinct timestamps inside a
      reference parked event that the IMU proxy flags as driving, over the
      number of distinct IMU timestamps inside a parked event.
      Both sets are selected with the same row-wise test, which fails with
      MissingColumn on a table without rows: first the proxy, then the IMU
      table. Without IMU data in a parked event the rate is undefined. */
  function Fpr(imu: seq<Corrected>, imuDr: seq<Corrected>, parked: seq<Interval>): (r: Result<real>)
    ensures r.Err? <==> |imuDr| == 0 || StampsIn(imu, parked) == {}
    ensures r.Err? ==> (r.error == MissingColumn <==> |imuDr| == 0 || |imu| == 0)
    ensures r.Err? ==> r.error in {MissingColumn, EmptyDenominator}
    ensures r.Ok? ==> r.value >= 0.0
    ensures r.Ok? ==> (r.value == 0.0 <==> StampsIn(imuDr, parked) == {})
  {
    var truth, proxy := StampsIn(imu, parked), StampsIn(imuDr, parked);
    if |imuDr| == 0 || |imu| == 0 then Err(MissingColumn)
    else if |truth| == 0 then Err(EmptyDenominator)
    else Ok(Ratio(|proxy|, |truth|))
  }

  /** Every proxy stamp is an IMU stamp, since the proxy selects among the
      IMU samples. */
  lemma DrivingStampsAreImuStamps(imu: seq<Corrected>, trace: seq<DriftCorrection.TimeSync>, ivs: seq<Interval>)
    ensures StampsIn(ImuDrivingData(imu, trace), ivs) <= StampsIn(imu, ivs)
  {
    var dr := ImuDrivingData(imu, trace);
    forall t | t in StampsIn(dr, ivs)
      ensures t in StampsIn(imu, ivs)
    {
      var c :| c in dr && InAny(ivs, c.correctTs) && c.correctTs == t;
    }
  }

  /** When the proxy is the IMU driving data, the false positive rate is a
      proper rate: at most 1, and exactly 1 when every parked IMU timestamp
      is flagged as driving. */
  lemma FprAtMostOne(imu: seq<Corrected>, trace: seq<DriftCorrection.TimeSync>, parked: seq<Interval>)
    requires Fpr(imu, ImuDrivingData(imu, trace), parked).Ok?
    ensures Fpr(imu, ImuDrivingData(imu, trace), parked).value <= 1.0
    ensures Fpr(imu, ImuDrivingData(imu, trace), parked).value == 1.0 <==>
            StampsIn(imu, parked) <= StampsIn(ImuDrivingData(imu, trace), parked)
  {
    var truth, proxy := StampsIn(imu, parked), StampsIn(ImuDrivingData(imu, trace), parked);
    DrivingStampsAreImuStamps(imu, trace, parked);
    SubsetSize(proxy, truth);
  }

  /** A proxy taken from a time-sync trace labelled "stationary" throughout
      selects no sample, so neither rate can be computed: both fail on the
      empty proxy table. */
  lemma StationaryProxyCannotBeScored(canDr: seq<Corrected>, imu: seq<Corrected>, trace: seq<DriftCorrection.TimeSync>,
                                      driving: seq<Interval>, parked: seq<Interval>)
    requires forall i :: 0 <= i < |trace| ==> trace[i].motionState == Some(Stationary)
    ensures Tpr(canDr, ImuDrivingData(imu, trace), driving) == Err(MissingColumn)
    ensures Fpr(imu, ImuDrivingData(imu, trace), parked) == Err(MissingColumn)
  {
    StationaryTraceSelectsNothing(imu, trace);
  }

  /** A non-empty proxy that flags nothing inside the parked events scores a
      false positive rate of 0 whenever the rate is defined. */
  lemma NoParkedFlagsNoFalsePositives(imu: seq<Corrected>, imuDr: seq<Corrected>, parked: seq<Interval>)
    requires |imuDr| > 0 && StampsIn(imu, parked) != {}
    requires forall c :: c in imuDr ==> !InAny(parked, c.correctTs)
    ensures Fpr(imu, imuDr, parked) == Ok(0.0)
  {
    assert StampsIn(imuDr, parked) == {};
  }

  /** Scoring the CAN driving data against itself gives a true positive rate
      of 1 exactly when the reference driving events cover every one of its
      timestamps. */
  lemma TprOfTruthAgainstItself(canDr: seq<Corrected>, driving: seq<Interval>)
    requires |canDr| > 0
    ensures Tpr(canDr, canDr, driving) == Ok(1.0) <==>
            forall c :: c in canDr ==> InAny(driving, c.correctTs)
  {
    if forall c :: c in canDr ==> InAny(driving, c.correctTs) {
      assert Stamps(canDr) <= StampsIn(canDr, driving);
    } else {
      var c :| c in canDr && !InAny(driving, c.correctTs);
      assert c.correctTs in Stamps(canDr);
      NotCovered(canDr, driving, c);
    }
  }

  /** A stamp none of whose samples lies in an interval is not among the
      stamps inside the intervals. */
  lemma NotCovered(rows: seq<Corrected>, ivs: seq<Interval>, c: Corrected)
    requires !InAny(ivs, c.correctTs)
    ensures c.correctTs !in StampsIn(rows, ivs)
  {
  }
}
